=== FILE: README.md ===
# Ballistic Wizard value sync, modelled in Dafny

This project models the value-synchronisation core of the Ballistic Wizard
Android app, which acts as a BLE peripheral. The app runs a GATT server with
one primary service. The service has three integer data channels, and each
channel is a characteristic that can be read, written and notified. The
model covers four things:

- **A channel** (`BleCharacteristicInt`): a replay-1 cache of one Kotlin `Int`,
  and the one-byte codec used on the wire. `write` replaces the cache.
  `read` decodes byte 0 of the characteristic as UINT8, falls back to 0, and
  caches what it decoded. The `combine(beat, state)` collector pushes the
  cached value to the central.
- **The service state** (`WizardServiceState`): `NotStarted`,
  `WaitingForDevice`, or `Connected` with three values and three setters.
- **The service** (`BallisticWizard`):
  - the permission preflight of `startServer`;
  - `onServerStart` and its `collectLatest` over the connections map;
  - `setUpServices`, with its `requireNotNull` checks, the three initial
    reads, and the combine-latest snapshot;
  - the `setDataK` setters.
- **`recursiveCancel`**: over an explicit tree of jobs, each with a
  cancelled flag.

Time and the transport are inputs. Each of these arrives as an event, and the
events are applied one at a time:

- the server's creation;
- each new value of the connections map;
- the bytes each initial read returns;
- each heartbeat;
- each call of a setter.

Each `setValueAndNotifyClient` call is an output `Notify(session, channel, payload)`.
A Kotlin `Int` is `Int32` and a Kotlin `Byte` is a signed `Byte`, both written
out over unbounded integers. A setter closure is represented by a handle
`SetData(session, channel)`. The handle names the channel object it writes and
the connection session that created that object.

Files and modules:

- `wrappers.dfy`: `Option`.
- `kotlin_types.dfy`: `Int32`, `Byte`, `toByte`, and `& 0xFF`.
- `ble_characteristic_int.dfy`: the channel.
- `wizard_tower.dfy`: the state union.
- `recursive_cancel.dfy`: `recursiveCancel`.
- `ballistic_wizard.dfy`: the service's step functions, with each new
  connections value cancelling the session before it (the evidently intended
  behaviour; see "## Findings").
- `wizard_properties.dfy`: lemmas over whole runs of that service.
- `session_leak.dfy`: the service as the code is written, where every session
  ever set up keeps running, and the run on which the two differ.

Some of the code's behaviour is easy to misread. Except for the session leak
under "## Findings", the model follows the code as written:

- **Pushes are not throttled to the heartbeat.** `combine(beat, state)` fires
  when either flow emits. So every write, and every decoded read, is pushed
  straight away, and every beat pushes the latest value again
  (`BleCharacteristicInt.Step`, `BurstKeepsLatest`). Intermediate values are
  not dropped between beats.
- **The wire value is one byte.** It is not a 1–4 byte signed little-endian
  integer. `toByte` truncates and the read decodes as unsigned, so a value
  outside `0..255` comes back modulo 256 (`RoundTrip`).
- **A failed set-up does not reset the state.** When a characteristic is
  missing, the code does not return the state to `WaitingForDevice`. It leaves
  the state as it was, which can be an earlier session's `Connected`, and the
  collector ends (`OnConnections`).
- **A failed initial read is never retried.** If one of the initial reads does
  not decode, that channel stays empty for the whole session, so the combine
  never publishes (`FailedReadWithholdsSnapshot`, `FailedReadStaysWithheld`,
  `SessionLeak.LeakyFailedReadStaysWithheld`). Nothing can write the empty
  channel, because a session's setters exist only inside the `Connected` its
  combine published: a setter event of a session that has not published does
  nothing.
- **The old snapshot stays on show after a reconnect.** Its values and setters
  stay published until the new session's combine replaces them
  (`ReconnectStartsFresh`).
- **Earlier sessions are never cancelled.** `setUpServices` is handed
  `connectionScope = this` from inside `collectLatest { }`, whose action has
  no receiver. So `this` is the long-lived collector launched by
  `onServerStart`, not a per-connection scope. Every session's heartbeats,
  initial reads, combine and setters keep running after a disconnect or a
  reconnect. Only a failed `requireNotNull`, which ends the collector, stops
  them all (`SessionLeak.FailedCollectorStopsEverything`). `SessionLeak`
  models this. `BallisticWizard` models the evidently intended single live
  session.

## Model

| member | source | states |
|---|---|---|
| `KotlinTypes.ToByte` | app/src/main/java/dev/simonas/ballisticwizard/BleCharacteristicInt.kt:61-62 | `Int.toByte()` is the unique signed byte congruent to the value modulo 256, i.e. its low 8 bits |
| `KotlinTypes.Unsigned` | app/src/main/java/dev/simonas/ballisticwizard/BleCharacteristicInt.kt:58-59 | reading a byte as UINT8 gives the value in `0..255` with the same low 8 bits |
| `BleCharacteristicInt.Encode` | app/src/main/java/dev/simonas/ballisticwizard/BleCharacteristicInt.kt:61-62 | encoding always yields exactly one byte, equal to the value's low 8 bits |
| `BleCharacteristicInt.Decode` | app/src/main/java/dev/simonas/ballisticwizard/BleCharacteristicInt.kt:58-59 | decoding succeeds exactly on a non-empty array; a decoded value lies in `0..255` and agrees with byte 0 modulo 256 |
| `BleCharacteristicInt.RoundTrip` | app/src/main/java/dev/simonas/ballisticwizard/BleCharacteristicInt.kt:58-62 | `decode(encode(v)) == v mod 256` for every `Int` |
| `BleCharacteristicInt.RoundTripInRange` | app/src/main/java/dev/simonas/ballisticwizard/BleCharacteristicInt.kt:58-62 | for `0 <= v < 256`, `decode(encode(v)) == v` |
| `BleCharacteristicInt.LastWriterWins` | app/src/main/java/dev/simonas/ballisticwizard/BleCharacteristicInt.kt:38-41 | `write(v1); write(v2)` leaves the same channel as `write(v2)`: nothing is queued and the cache holds `v2` |
| `BleCharacteristicInt.Read` | app/src/main/java/dev/simonas/ballisticwizard/BleCharacteristicInt.kt:43-56 | an undecodable value returns 0 and leaves the channel unchanged; a decoded `n` is returned and the channel becomes `write(n)` |
| `BleCharacteristicInt.ReadThenBeatRoundTrip` | app/src/main/java/dev/simonas/ballisticwizard/BleCharacteristicInt.kt:32-56 | a value read and then pushed reaches the central unchanged |
| `BleCharacteristicInt.Push` | app/src/main/java/dev/simonas/ballisticwizard/BleCharacteristicInt.kt:32-36 | the collector pushes nothing while the cache is empty; otherwise it pushes one byte that decodes to the cached value modulo 256 |
| `BleCharacteristicInt.Step` | app/src/main/java/dev/simonas/ballisticwizard/BleCharacteristicInt.kt:32-56 | every push carries the latest cached value. A push happens unless the event is a beat on an empty cache or a read that does not decode. Beats and failed reads leave the channel alone; a write leaves it as `write` does, and a decoded read as `read` does |
| `BleCharacteristicInt.BurstKeepsLatest` | app/src/main/java/dev/simonas/ballisticwizard/BleCharacteristicInt.kt:22-41 | after a burst of writes the cache holds the last one, and the pushes are exactly the encodings of the values written, one per write, in order |
| `BleCharacteristicInt.BeatAfterBurst` | app/src/main/java/dev/simonas/ballisticwizard/BleCharacteristicInt.kt:25-41 | the beat after a burst of writes pushes the last value written |
| `BleCharacteristicInt.SilentUntilFirstValue` | app/src/main/java/dev/simonas/ballisticwizard/BleCharacteristicInt.kt:25-36 | while the cache has never held a value, beats and failed reads push nothing and change nothing |
| `WizardTower.ConnectedDeterminedByChannels` | app/src/main/java/dev/simonas/ballisticwizard/WizardTower.kt:3-13 | a `Connected` state whose setters pair with their channels is fully determined by its three integer values and their session. It carries nothing else |
| `RecursiveCancel.Cancel` | app/src/main/java/dev/simonas/ballisticwizard/BallisticWizard.kt:44-51 | the tree keeps its shape and the root keeps its own flag. Every child subtree is cancelled throughout, leaves included |
| `RecursiveCancel.CancelEach` | app/src/main/java/dev/simonas/ballisticwizard/BallisticWizard.kt:45-50 | each child is walked when it has children, then cancelled, so each resulting subtree has the same shape and is cancelled throughout |
| `RecursiveCancel.CancelReachesEveryDescendant` | app/src/main/java/dev/simonas/ballisticwizard/BallisticWizard.kt:44-51 | exactly the same paths exist before and after. The node at the empty path keeps its flag, and the node at every non-empty path is cancelled |
| `BallisticWizard.NonGranted` | app/src/main/java/dev/simonas/ballisticwizard/BallisticWizard.kt:86-90 | the result holds exactly the listed permissions that are not granted, as a subsequence of the list, so in declaration order |
| `BallisticWizard.Preflight` | app/src/main/java/dev/simonas/ballisticwizard/BallisticWizard.kt:79-96 | `PermissionRequired` exactly when some permission is not granted, carrying the names of exactly the missing ones, in list order; otherwise `Ok` |
| `BallisticWizard.StartServer` | app/src/main/java/dev/simonas/ballisticwizard/BallisticWizard.kt:79-172 | `PermissionRequired` comes back exactly when some permission is missing. It names exactly the missing permissions, in order, and launches nothing. Otherwise the result is `Ok` and the server is launched |
| `BallisticWizard.AllServices` | app/src/main/java/dev/simonas/ballisticwizard/BallisticWizard.kt:180 | the flattened list holds exactly the services of every connected device (its order is stated by `FindPicksFirstOfferingDevice`) |
| `BallisticWizard.FindService` | app/src/main/java/dev/simonas/ballisticwizard/BallisticWizard.kt:180-183 | the result is nothing exactly when no service has the UUID; otherwise it is the first service with that UUID |
| `BallisticWizard.FoundIffOffered` | app/src/main/java/dev/simonas/ballisticwizard/BallisticWizard.kt:180-191 | the service is found exactly when some connected device offers it |
| `BallisticWizard.FindInConcat` | app/src/main/java/dev/simonas/ballisticwizard/BallisticWizard.kt:180-183 | `find` over two lists in a row returns the first list's match when it has one, and otherwise the second list's |
| `BallisticWizard.FindPicksFirstOfferingDevice` | app/src/main/java/dev/simonas/ballisticwizard/BallisticWizard.kt:180-183 | the service found is the first matching service of the first device, in map order, that offers the UUID |
| `BallisticWizard.Discover` | app/src/main/java/dev/simonas/ballisticwizard/BallisticWizard.kt:180-213 | no device when no device offers the service; otherwise the service `find` returns, complete exactly when it has all three characteristics, and incomplete (a `requireNotNull` fails) when it lacks one |
| `BallisticWizard.Snapshot` | app/src/main/java/dev/simonas/ballisticwizard/BallisticWizard.kt:220-239 | combine-latest emits nothing until all three caches hold a value. Then it emits one `Connected` with each channel's latest value, next to the setter of that channel in that session |
| `BallisticWizard.UpdateKeepsOtherChannels` | app/src/main/java/dev/simonas/ballisticwizard/BallisticWizard.kt:220-239 | once all caches hold values, an update of channel i yields a snapshot with i's new value and the other two unchanged |
| `BallisticWizard.ReadNext` | app/src/main/java/dev/simonas/ballisticwizard/BallisticWizard.kt:215-218 | the session's next initial read targets channel 1, 2, 3 in turn, leaves that channel as `read` does and the others unchanged, and pushes exactly when the bytes decode |
| `BallisticWizard.BeatOf` | app/src/main/java/dev/simonas/ballisticwizard/BleCharacteristicInt.kt:32-36 | a beat of one channel of a session notifies exactly when that channel holds a value, with the encoding of that value |
| `BallisticWizard.WriteOf` | app/src/main/java/dev/simonas/ballisticwizard/BallisticWizard.kt:227-237 | `setDataK(v)` on a session writes only channel K, keeps the read count, and notifies `encode(v)` on K |
| `BallisticWizard.Publish` | app/src/main/java/dev/simonas/ballisticwizard/BallisticWizard.kt:224-225 | the combine publishes only after the initial reads and once every cache holds a value, and then publishes a paired `Connected` of that session with each channel's value; otherwise the state is left as it was |
| `BallisticWizard.Init` | app/src/main/java/dev/simonas/ballisticwizard/BallisticWizard.kt:60 | a new service is `NotStarted`, with no session and nothing launched |
| `BallisticWizard.OnServerCreated` | app/src/main/java/dev/simonas/ballisticwizard/BallisticWizard.kt:174-176 | when the launched server comes up, the state becomes `WaitingForDevice` and collection of connections begins |
| `BallisticWizard.OnConnections` | app/src/main/java/dev/simonas/ballisticwizard/BallisticWizard.kt:177-213 | the previous session is always dropped. If no device offers the service, the state becomes `WaitingForDevice`. If the first service found lacks a characteristic, collection fails and the state is untouched. Otherwise a new, empty session starts |
| `BallisticWizard.OnInitialRead` | app/src/main/java/dev/simonas/ballisticwizard/BallisticWizard.kt:215-239 | the reads of the live session hit channels 1, 2, 3 in order, each as `read` does, with the other channels unchanged. A decoded read is pushed on its channel. After the third read the combine publishes when it can. Another session's read does nothing |
| `BallisticWizard.OnHeartbeat` | app/src/main/java/dev/simonas/ballisticwizard/BleCharacteristicInt.kt:25-36 | a beat of channel k of the live session notifies k with the encoding of its cached value, and nothing when that channel is empty. A beat of another session notifies nothing. Nothing changes |
| `BallisticWizard.OnSet` | app/src/main/java/dev/simonas/ballisticwizard/BallisticWizard.kt:225-237 | once its live session has published, `setDataK(v)` writes only channel K of that session, pushes `encode(v)`, and the combine republishes that session's snapshot with the new value. Before the session has published, and for a setter of another session, it does nothing |
| `BallisticWizard.Step` | app/src/main/java/dev/simonas/ballisticwizard/BallisticWizard.kt:174-241 | every notification comes from the live session and carries the encoding of the value its channel then holds; an event of any other session changes nothing and sends nothing; server and connection events send nothing |
| `WizardProperties.InitInv` | app/src/main/java/dev/simonas/ballisticwizard/BallisticWizard.kt:60 | the initial service satisfies the service invariant |
| `WizardProperties.StartServerInv` | app/src/main/java/dev/simonas/ballisticwizard/BallisticWizard.kt:79-172 | `startServer` preserves the service invariant |
| `WizardProperties.StepInv` | app/src/main/java/dev/simonas/ballisticwizard/BallisticWizard.kt:174-241 | every event preserves the invariant. The state is `NotStarted` exactly while the server is not up. `Connected` pairs values with setters. The live session's `Connected` shows exactly its channels' values |
| `WizardProperties.RunInv` | app/src/main/java/dev/simonas/ballisticwizard/BallisticWizard.kt:174-241 | the invariant holds after any sequence of events |
| `WizardProperties.ConnectedMirrorsChannels` | app/src/main/java/dev/simonas/ballisticwizard/BallisticWizard.kt:215-239 | after start and any run of events, a `Connected` state of the live session shows each channel's current cached value, next to that channel's setter |
| `WizardProperties.NeverBackToNotStarted` | app/src/main/java/dev/simonas/ballisticwizard/BallisticWizard.kt:174-192 | once the state has left `NotStarted`, no sequence of events returns it there |
| `WizardProperties.NoConnectedUntilAllCached` | app/src/main/java/dev/simonas/ballisticwizard/BallisticWizard.kt:220-239 | a newly published `Connected` requires that the initial reads are over and all three caches of the live session hold values; it is that session's snapshot |
| `WizardProperties.FirstSnapshotIsInitialReads` | app/src/main/java/dev/simonas/ballisticwizard/BallisticWizard.kt:215-239 | when the three initial reads decode, the first snapshot is exactly the three decoded values, and three pushes happened |
| `WizardProperties.FailedReadWithholdsSnapshot` | app/src/main/java/dev/simonas/ballisticwizard/BallisticWizard.kt:215-239 | when some initial read does not decode, no snapshot exists and the published state is unchanged |
| `WizardProperties.FailedReadStaysWithheld` | app/src/main/java/dev/simonas/ballisticwizard/BallisticWizard.kt:215-239 | once the initial reads are over with a channel still empty, no event short of a new connections value changes the service at all, so the combine never publishes for that session |
| `WizardProperties.CancelledSessionIsInert` | app/src/main/java/dev/simonas/ballisticwizard/BallisticWizard.kt:177-192 | with earlier sessions cancelled, a setter, heartbeat or initial read of any session but the live one changes nothing and notifies nothing |
| `WizardProperties.SetterWritesOnlyItsChannel` | app/src/main/java/dev/simonas/ballisticwizard/BallisticWizard.kt:225-237 | once the session has published, `setDataK` stores its value in channel K and leaves the other two channels as they were; before that it changes nothing |
| `WizardProperties.SilentWithoutSession` | app/src/main/java/dev/simonas/ballisticwizard/BallisticWizard.kt:177-192 | with earlier sessions cancelled and no live session, no event short of a new connections value sends any notification |
| `WizardProperties.DisconnectWaitsForDevice` | app/src/main/java/dev/simonas/ballisticwizard/BallisticWizard.kt:180-191 | a connections value in which no device offers the service, the empty map included, yields `WaitingForDevice` and cancels the session |
| `WizardProperties.ReconnectStartsFresh` | app/src/main/java/dev/simonas/ballisticwizard/BallisticWizard.kt:177-213 | a complete service found on reconnect gets a new session with a new id, empty caches and no reads done. No setter still on show can reach it |
| `WizardProperties.EndToEndScenario` | app/src/main/java/dev/simonas/ballisticwizard/BallisticWizard.kt:174-241 | start, connect, reads 1/2/3, then writes 10/20/30 give `{10,20,30}`. Setting channel 2 to 99 gives `{10,99,30}` and pushes `[99]`. A disconnect gives `WaitingForDevice`, and with the session cancelled its heartbeats are silent |
| `SessionLeak.LeakyInit` | app/src/main/java/dev/simonas/ballisticwizard/BallisticWizard.kt:60 | as written, a new service is `NotStarted`, with no sessions and nothing launched |
| `SessionLeak.LeakyStartServer` | app/src/main/java/dev/simonas/ballisticwizard/BallisticWizard.kt:79-172 | as written, `startServer` returns the preflight's answer, launches nothing when a permission is missing, and otherwise launches the server |
| `SessionLeak.LeakyStep` | app/src/main/java/dev/simonas/ballisticwizard/BallisticWizard.kt:174-241 | as written: the server's creation moves a launched service to `WaitingForDevice`; connections values act only while the collector runs; a value without the service only resets the state to `WaitingForDevice`; a complete service adds a new session next to the old ones; an incomplete one fails the collector and changes nothing else; a heartbeat or initial read of any running session acts as on that session, and so does its setter once the session has published, while events of no running session do nothing; every notification carries the encoding of its session's cached value |
| `SessionLeak.FailedCollectorStopsEverything` | app/src/main/java/dev/simonas/ballisticwizard/BallisticWizard.kt:202-213 | once a `requireNotNull` has failed and ended the collector, no event changes anything or sends any notification: every session is stopped |
| `SessionLeak.LeakyInitInv` | app/src/main/java/dev/simonas/ballisticwizard/BallisticWizard.kt:60 | the initial as-written service satisfies its invariant |
| `SessionLeak.LeakyStepInv` | app/src/main/java/dev/simonas/ballisticwizard/BallisticWizard.kt:174-241 | every event preserves the as-written invariant: session `i` has id `i`, and a `Connected` on show is the current snapshot of the session that published it, whichever session that is |
| `SessionLeak.LeakyRunInv` | app/src/main/java/dev/simonas/ballisticwizard/BallisticWizard.kt:174-241 | the as-written invariant holds after any sequence of events |
| `SessionLeak.SessionsOutliveReconnects` | app/src/main/java/dev/simonas/ballisticwizard/BallisticWizard.kt:177-192 | as written, connections values that do not fail set-up keep every earlier session, unchanged, and notify nothing themselves |
| `SessionLeak.LeakedHeartbeatKeepsNotifying` | app/src/main/java/dev/simonas/ballisticwizard/BleCharacteristicInt.kt:25-36 | as written, after any such connections values a session that cached a value still pushes it on every heartbeat |
| `SessionLeak.LeakyNoConnectedUntilAllCached` | app/src/main/java/dev/simonas/ballisticwizard/BallisticWizard.kt:220-239 | as written, a newly published `Connected` is the snapshot of the event's own session, its reads over; that session need not be the newest |
| `SessionLeak.LeakyFailedReadStaysWithheld` | app/src/main/java/dev/simonas/ballisticwizard/BallisticWizard.kt:215-239 | as written, a session whose initial reads are over with a channel still empty stays exactly as it is, whatever events follow |
| `SessionLeak.EarlierSetterRepublishes` | app/src/main/java/dev/simonas/ballisticwizard/BallisticWizard.kt:227-237 | as written, whatever sessions came later, a setter of the `Connected` on show writes its session's channel, notifies `encode(v)`, and that session's combine republishes `Connected` with the new value |
| `SessionLeak.LeakyDisconnectWaitsForDevice` | app/src/main/java/dev/simonas/ballisticwizard/BallisticWizard.kt:180-191 | as written, a connections value in which no device offers the service yields `WaitingForDevice` and leaves every session running |
| `SessionLeak.DisconnectLeavesSessionRunning` | app/src/main/java/dev/simonas/ballisticwizard/BallisticWizard.kt:187 | on connect, reads 1/2/3, disconnect: both models show `WaitingForDevice`, but as written a heartbeat still notifies `[1]` and a setter republishes `Connected`, where the intended model does neither |

## Findings

| source | as written | input that shows it | evidently intended | confidence | as-written member | corrected member |
|---|---|---|---|---|---|---|
| app/src/main/java/dev/simonas/ballisticwizard/BallisticWizard.kt:187 | `connectionScope = this` inside `collectLatest { }` is the collector's own scope, so no session is ever cancelled by a later connections value | server up, one device with the complete service, initial reads `[1]`, `[2]`, `[3]`, then an empty connections map, then a heartbeat of channel 1 | a disconnect or reconnect cancels the previous session: its heartbeats, reads and setters stop | likely; not executed | `SessionLeak.DisconnectLeavesSessionRunning` | `WizardProperties.CancelledSessionIsInert` |

## Left out

- BLE transport: `ServerBleGatt.create`, `BleAdvertiser` and advertising, `setValueAndNotifyClient`, `char.value` and `cancelConnection` are foreign calls. The server coming up is the `ServerCreated` event; a `create` that throws simply never produces it. Notifications are outputs; read bytes are inputs.
- `stopServer` (BallisticWizard.kt:70-77) is not part of this model: it only calls the transport and cancels the scope.
- `DataByteArray.getIntValue` is not part of this model. Its UINT8 read at offset 0 is taken to fail exactly on an empty array, and otherwise to return byte 0 as unsigned.
- Coroutines: the 1000 ms `delay`, `SharingStarted.Eagerly`, `Dispatchers.IO` and `collectLatest`'s cancellation are replaced by events applied one at a time. Each reaction finishes before the next event, so interleavings inside one reaction and `combine`'s batching of simultaneous updates are not modelled.
- `MutableSharedFlow.tryEmit` can fail when a subscriber lags, because the flow suspends on overflow with a one-slot buffer. This is a concurrency effect, so the model's writes always succeed.
- Android's `checkSelfPermission` is the input predicate `granted`.
- The process-level effect of a set-up failure is not modelled. The model ends the collector. Under `GlobalScope` with no handler, the exception also escapes the coroutine.
- A second `startServer` that succeeds while a server is already launched would launch another server and collector. The model keeps the one it has.
- `UUID.fromString` parsing is not modelled. UUIDs are compared as the canonical strings of the constants.
- The connections map's keys are dropped. Its devices are given as a sequence in the map's iteration order.
- `recursiveCancel`'s `cause` argument is not modelled. Kotlin's own propagation of `cancel` to children is not modelled either: only the flags that the walk sets are.
- The value `read` returns inside `setUpServices` is only logged, so the service model discards it.
- Logging (Logger.kt, L.kt, LogsRepository.kt) and the UI (WizardBigSlider.kt, WizardValueSlider.kt, WizardScreen.kt, MainActivity.kt) are not part of this model.
- OnConnections: models the intended behaviour, where each connections value cancels the previous session; the code as written keeps it running (`SessionLeak.LeakyStep`, see "## Findings").
- OnHeartbeat: models the intended behaviour, where only the live session beats; as written every earlier session keeps beating (`SessionLeak.LeakedHeartbeatKeepsNotifying`).
- OnSet: models the intended behaviour, where an earlier session's setter is inert; as written it still writes, notifies and republishes (`SessionLeak.EarlierSetterRepublishes`).
- NoConnectedUntilAllCached: states that a new `Connected` is the live session's snapshot, which holds of the intended model only; as written it is the snapshot of whichever session's event caused it (`SessionLeak.LeakyNoConnectedUntilAllCached`).
- CancelledSessionIsInert: holds of the intended model only; as written no session but the failed collector's is ever cancelled (`SessionLeak.DisconnectLeavesSessionRunning`).
- SilentWithoutSession: holds of the intended model only; as written earlier sessions keep notifying after a disconnect (`SessionLeak.LeakedHeartbeatKeepsNotifying`).
- DisconnectWaitsForDevice: its "no session" conjunct holds of the intended model only; as written the state becomes `WaitingForDevice` but every session keeps running (`SessionLeak.LeakyDisconnectWaitsForDevice`).
- FailedReadStaysWithheld: holds of the intended model only; as written an earlier session's published setter still writes and republishes; what survives in the code as written, that the failed session itself never changes again, is `SessionLeak.LeakyFailedReadStaysWithheld`.
- OnInitialRead: models the intended behaviour, where only the live session still reads; as written an earlier session's read block keeps running, its decoded reads push and its combine can publish (`SessionLeak.LeakyStep`).
- Step: its clause that an event of any session but the live one is inert holds of the intended model only; as written every running session acts (`SessionLeak.LeakyStep`).
- EndToEndScenario: its silent heartbeats after the disconnect hold of the intended model only; as written session 0 keeps pushing its cached values (`SessionLeak.DisconnectLeavesSessionRunning`).
- The as-written model (`SessionLeak`) has no live-session bookkeeping beyond the list of sessions: every session ever set up stays in the list until the collector fails, since nothing in the code removes one.

=== FILE: ballistic_wizard.dfy ===
/** The service facade `BallisticWizard`: the permission preflight of
    `startServer`, the state changes of `onServerStart`, and the channel set-up
    and combine-latest snapshot of `setUpServices`.

    Time and the transport are inputs: the server's creation, each emission of
    the server's connections map, the bytes each initial read returns, each
    heartbeat and each call of a setter arrive as events, applied one at a
    time, and every notification the channels send is an output. */
module BallisticWizard {
  import opened Wrappers
  import opened KotlinTypes
  import opened WizardTower
  import BleCharacteristicInt

  type Channel = BleCharacteristicInt.Channel

  // ---------------------------------------------------------------------
  // Permission preflight

  /** The permissions `startServer` checks, in the order it lists them. */
  datatype Permission = AccessBackgroundLocation | BluetoothAdvertise | BluetoothConnect

  const RequiredPermissions: seq<Permission> :=
    [AccessBackgroundLocation, BluetoothAdvertise, BluetoothConnect]

  /** The `Manifest.permission` string of each permission. */
  function Name(p: Permission): (n: string)
    ensures |n| > 19 && n[..19] == "android.permission."
  {
    match p
    case AccessBackgroundLocation => "android.permission.ACCESS_BACKGROUND_LOCATION"
    case BluetoothAdvertise => "android.permission.BLUETOOTH_ADVERTISE"
    case BluetoothConnect => "android.permission.BLUETOOTH_CONNECT"
  }

  function Names(ps: seq<Permission>): (ns: seq<string>)
    ensures |ns| == |ps|
    ensures forall i :: 0 <= i < |ps| ==> ns[i] == Name(ps[i])
  {
    if |ps| == 0 then [] else [Name(ps[0])] + Names(ps[1..])
  }

  /** `xs` is `ys` with some elements deleted, the rest kept in order. */
  ghost predicate IsSubsequence<T>(xs: seq<T>, ys: seq<T>)
    decreases |ys|
  {
    || |xs| == 0
    || (&& |ys| > 0
        && if xs[0] == ys[0] then IsSubsequence(xs[1..], ys[1..]) else IsSubsequence(xs, ys[1..]))
  }

  /** The `filter` of `startServer`: the permissions the environment has not
      granted, in the order they were listed. */
  function NonGranted(ps: seq<Permission>, granted: Permission -> bool): (missing: seq<Permission>)
    ensures forall p :: p in missing <==> p in ps && !granted(p)
    ensures IsSubsequence(missing, ps)
    decreases |ps|
  {
    if |ps| == 0 then []
    else
      var rest := NonGranted(ps[1..], granted);
      if granted(ps[0]) then rest else [ps[0]] + rest
  }

  datatype ServerStartResult = Ok | PermissionRequired(permissions: seq<string>)

  /** The preflight of `startServer`: `PermissionRequired` naming exactly the
      permissions not granted, in the order they are listed, when there is
      one; `Ok` when all three are granted. */
  function Preflight(granted: Permission -> bool): (r: ServerStartResult)
    ensures r.PermissionRequired? <==> exists p :: p in RequiredPermissions && !granted(p)
    ensures r.PermissionRequired? ==>
      && r.permissions == Names(NonGranted(RequiredPermissions, granted))
      && (forall p :: Name(p) in r.permissions <==> !granted(p))
  {
    var missing := NonGranted(RequiredPermissions, granted);
    EveryPermissionRequired();
    if |missing| > 0 then
      assert missing[0] in missing;
      assert forall p :: Name(p) in Names(missing) <==> p in missing by {
        forall p ensures Name(p) in Names(missing) <==> p in missing {
          if Name(p) in Names(missing) {
            var i :| 0 <= i < |missing| && Names(missing)[i] == Name(p);
            NameInjective(p, missing[i]);
          }
          if p in missing {
            var i :| 0 <= i < |missing| && missing[i] == p;
            assert Names(missing)[i] == Name(p);
          }
        }
      }
      PermissionRequired(Names(missing))
    else
      Ok
  }

  lemma EveryPermissionRequired()
    ensures forall p :: p in RequiredPermissions
  {
    forall p ensures p in RequiredPermissions {
      match p
      case AccessBackgroundLocation => assert RequiredPermissions[0] == p;
      case BluetoothAdvertise => assert RequiredPermissions[1] == p;
      case BluetoothConnect => assert RequiredPermissions[2] == p;
    }
  }

  /** Distinct permissions have distinct names. */
  lemma NameInjective(p: Permission, q: Permission)
    ensures Name(p) == Name(q) ==> p == q
  {
  }

  // ---------------------------------------------------------------------
  // Discovered GATT services

  /** A `UUID`, in the canonical lower-case form the constants use. */
  type Uuid = string

  const ServerUuid: Uuid := "5732d41c-e40b-4ec9-8e17-bc61ba185486"
  const Data1Uuid: Uuid := "0609d529-b3a9-4d18-ac96-e09a02d14cdf"
  const Data2Uuid: Uuid := "315fb3e2-9c5a-4784-8d30-8dddca5b9625"
  const Data3Uuid: Uuid := "fd3d3f21-ab45-4f0d-b0c7-de1d392df061"

  /** The characteristic UUID each channel is bound to. */
  function CharacteristicUuid(k: ChannelId): (u: Uuid)
    ensures u != ServerUuid
  {
    match k
    case Data1 => Data1Uuid
    case Data2 => Data2Uuid
    case Data3 => Data3Uuid
  }

  /** A service offered by a connected device, with its characteristics. */
  datatype GattService = GattService(uuid: Uuid, characteristics: seq<Uuid>)

  /** A connected device and the services discovered on it. */
  datatype Connection = Connection(services: seq<GattService>)

  /** `it.values.flatMap { it.services.services }`: the services of every
      connection, connection by connection. */
  function AllServices(conns: seq<Connection>): (svcs: seq<GattService>)
    ensures forall s :: s in svcs <==> exists c :: c in conns && s in c.services
    decreases |conns|
  {
    if |conns| == 0 then []
    else
      var rest := AllServices(conns[1..]);
      assert forall c :: c in conns <==> c == conns[0] || c in conns[1..];
      conns[0].services + rest
  }

  /** `find`: the first service with the given UUID. */
  function FindService(svcs: seq<GattService>, uuid: Uuid): (found: Option<GattService>)
    ensures found.None? <==> forall i :: 0 <= i < |svcs| ==> svcs[i].uuid != uuid
    ensures found.Some? ==>
      exists i :: 0 <= i < |svcs| && svcs[i] == found.value && found.value.uuid == uuid
        && forall j :: 0 <= j < i ==> svcs[j].uuid != uuid
    decreases |svcs|
  {
    if |svcs| == 0 then None
    else if svcs[0].uuid == uuid then Some(svcs[0])
    else
      var found := FindService(svcs[1..], uuid);
      assert found.Some? ==>
        exists i :: 0 <= i < |svcs[1..]| && svcs[1..][i] == found.value
          && forall j :: 0 <= j < i ==> svcs[1..][j].uuid != uuid;
      assert found.Some? ==>
        exists i :: 1 <= i < |svcs| && svcs[i] == found.value
          && forall j :: 1 <= j < i ==> svcs[j].uuid != uuid;
      found
  }

  /** Some connected device offers a service with the given UUID. */
  ghost predicate Offers(conns: seq<Connection>, uuid: Uuid)
  {
    exists c, s :: c in conns && s in c.services && s.uuid == uuid
  }

  /** The `find` over the flattened services succeeds exactly when some
      device offers the service. */
  lemma FoundIffOffered(conns: seq<Connection>, uuid: Uuid)
    ensures FindService(AllServices(conns), uuid).Some? <==> Offers(conns, uuid)
  {
    var svcs := AllServices(conns);
    if Offers(conns, uuid) {
      var c, s :| c in conns && s in c.services && s.uuid == uuid;
      assert s in svcs;
      var i :| 0 <= i < |svcs| && svcs[i] == s;
      assert svcs[i].uuid == uuid;
    }
    if FindService(svcs, uuid).Some? {
      var s := FindService(svcs, uuid).value;
      assert s in svcs;
    }
  }

  /** `find` over two lists in a row looks in the second only when the first
      has no match. */
  lemma {:induction false} FindInConcat(a: seq<GattService>, b: seq<GattService>, uuid: Uuid)
    ensures FindService(a + b, uuid) ==
      if FindService(a, uuid).Some? then FindService(a, uuid) else FindService(b, uuid)
    decreases |a|
  {
    if |a| == 0 {
      assert a + b == b;
    } else {
      assert (a + b)[0] == a[0];
      assert (a + b)[1..] == a[1..] + b;
      if a[0].uuid != uuid {
        FindInConcat(a[1..], b, uuid);
      }
    }
  }

  /** The flattening keeps the devices in map order, so the service found is
      the first matching service of the first device that offers one. */
  lemma {:induction false} FindPicksFirstOfferingDevice(conns: seq<Connection>, uuid: Uuid, i: nat)
    requires i < |conns|
    requires exists s :: s in conns[i].services && s.uuid == uuid
    requires forall j, s :: 0 <= j < i && s in conns[j].services ==> s.uuid != uuid
    ensures FindService(AllServices(conns), uuid) == FindService(conns[i].services, uuid)
    decreases i
  {
    assert AllServices(conns) == conns[0].services + AllServices(conns[1..]);
    FindInConcat(conns[0].services, AllServices(conns[1..]), uuid);
    if i == 0 {
      var s :| s in conns[0].services && s.uuid == uuid;
      var k :| 0 <= k < |conns[0].services| && conns[0].services[k] == s;
      assert FindService(conns[0].services, uuid).Some?;
    } else {
      assert FindService(conns[0].services, uuid).None? by {
        forall k | 0 <= k < |conns[0].services|
          ensures conns[0].services[k].uuid != uuid
        {
          assert conns[0].services[k] in conns[0].services;
        }
      }
      var rest := conns[1..];
      assert rest[i - 1] == conns[i];
      forall j, s | 0 <= j < i - 1 && s in rest[j].services
        ensures s.uuid != uuid
      {
        assert rest[j] == conns[j + 1];
      }
      FindPicksFirstOfferingDevice(rest, uuid, i - 1);
    }
  }

  /** Whether `findCharacteristic` returns a characteristic (not null). */
  predicate HasCharacteristic(s: GattService, k: ChannelId)
  {
    CharacteristicUuid(k) in s.characteristics
  }

  /** What one value of the connections map leads `setUpServices` to. */
  datatype Discovery =
    | NoDevice                          // no device offers the service
    | Incomplete(service: GattService)  // found, but a `requireNotNull` fails
    | Complete(service: GattService)    // found with all three characteristics

  /** The `find` of the service and the three `requireNotNull` checks. */
  function Discover(conns: seq<Connection>): (d: Discovery)
    ensures d.NoDevice? <==> !Offers(conns, ServerUuid)
    ensures !d.NoDevice? ==>
      && FindService(AllServices(conns), ServerUuid) == Some(d.service)
      && d.service in AllServices(conns)
      && d.service.uuid == ServerUuid
    ensures d.Complete? <==> !d.NoDevice? && forall k :: HasCharacteristic(d.service, k)
  {
    FoundIffOffered(conns, ServerUuid);
    match FindService(AllServices(conns), ServerUuid)
    case None => NoDevice
    case Some(svc) =>
      if HasCharacteristic(svc, Data1) && HasCharacteristic(svc, Data2) && HasCharacteristic(svc, Data3)
      then Complete(svc)
      else Incomplete(svc)
  }

  // ---------------------------------------------------------------------
  // One connection's session: three channels and the combine-latest step

  /** The channels built by one `setUpServices` call. `readsDone` counts the
      initial reads done so far by the launched block; the combine over the
      three caches runs once all three are done. */
  datatype Session = Session(id: nat, ch1: Channel, ch2: Channel, ch3: Channel, readsDone: nat)

  function ChannelOf(s: Session, k: ChannelId): (c: Channel)
  {
    match k
    case Data1 => s.ch1
    case Data2 => s.ch2
    case Data3 => s.ch3
  }

  /** The session with channel `k` replaced. */
  function WithChannel(s: Session, k: ChannelId, c: Channel): (r: Session)
    ensures ChannelOf(r, k) == c
    ensures forall j :: j != k ==> ChannelOf(r, j) == ChannelOf(s, j)
    ensures r.id == s.id && r.readsDone == s.readsDone
  {
    match k
    case Data1 => s.(ch1 := c)
    case Data2 => s.(ch2 := c)
    case Data3 => s.(ch3 := c)
  }

  /** The session just created for a connection: nothing cached, nothing read. */
  function NewSession(id: nat): (s: Session)
    ensures s.id == id && s.readsDone == 0
    ensures forall k :: ChannelOf(s, k).cache.None?
  {
    Session(id, BleCharacteristicInt.Fresh, BleCharacteristicInt.Fresh, BleCharacteristicInt.Fresh, 0)
  }

  /** The `combine` of the three caches: no snapshot until every channel holds
      a value; then one `Connected` state showing each channel's latest value
      next to the setter that writes that channel of this session. */
  function Snapshot(s: Session): (snap: Option<WizardServiceState>)
    ensures snap.Some? <==> forall k :: ChannelOf(s, k).cache.Some?
    ensures snap.Some? ==>
      && snap.value.Connected?
      && Paired(snap.value)
      && snap.value.setData1.session == s.id
      && forall k :: DeviceData(snap.value, k) == ChannelOf(s, k).cache.value
  {
    var allCached := s.ch1.cache.Some? && s.ch2.cache.Some? && s.ch3.cache.Some?;
    assert allCached <==> forall k :: ChannelOf(s, k).cache.Some? by {
      assert ChannelOf(s, Data1) == s.ch1 && ChannelOf(s, Data2) == s.ch2 && ChannelOf(s, Data3) == s.ch3;
    }
    if allCached then
      Some(Connected(
        s.ch1.cache.value, SetData(s.id, Data1),
        s.ch2.cache.value, SetData(s.id, Data2),
        s.ch3.cache.value, SetData(s.id, Data3)))
    else None
  }

  /** Once every channel holds a value, an update of one channel yields a
      snapshot with that channel's new value and the other two unchanged. */
  lemma UpdateKeepsOtherChannels(s: Session, k: ChannelId, v: Int32)
    requires Snapshot(s).Some?
    ensures Snapshot(WithChannel(s, k, BleCharacteristicInt.Write(ChannelOf(s, k), v))).Some?
    ensures var snap := Snapshot(WithChannel(s, k, BleCharacteristicInt.Write(ChannelOf(s, k), v))).value;
      && DeviceData(snap, k) == v
      && forall j :: j != k ==> DeviceData(snap, j) == DeviceData(Snapshot(s).value, j)
  {
  }

  /** A `setValueAndNotifyClient` call on one channel's characteristic, in
      the connection of the session that owns that channel. */
  datatype Notification = Notify(session: nat, channel: ChannelId, payload: seq<Byte>)

  /** A session after one of its own events, and the notification it sends. */
  datatype SessionStep = SessionStep(session: Session, notify: Option<Notification>)

  /** The channel the `i`-th initial read targets. */
  function ReadOrder(i: nat): (k: ChannelId)
    requires i < 3
    ensures (k == Data1 <==> i == 0) && (k == Data2 <==> i == 1) && (k == Data3 <==> i == 2)
  {
    if i == 0 then Data1 else if i == 1 then Data2 else Data3
  }

  /** The next read of the session's launched block, which reads channel 1,
      2, 3 in turn. A decoded read is stored in its channel and pushed like a
      write. */
  function ReadNext(s: Session, remote: seq<Byte>): (r: SessionStep)
    requires s.readsDone < 3
    ensures var k := ReadOrder(s.readsDone);
      && r.session.id == s.id
      && r.session.readsDone == s.readsDone + 1
      && ChannelOf(r.session, k) == BleCharacteristicInt.Read(ChannelOf(s, k), remote).channel
      && (forall j :: j != k ==> ChannelOf(r.session, j) == ChannelOf(s, j))
      && (r.notify.Some? <==> |remote| > 0)
      && (r.notify.Some? ==>
            && ChannelOf(r.session, k).cache.Some?
            && r.notify.value == Notify(s.id, k, BleCharacteristicInt.Encode(ChannelOf(r.session, k).cache.value)))
  {
    var k := ReadOrder(s.readsDone);
    var e := BleCharacteristicInt.Step(ChannelOf(s, k), BleCharacteristicInt.ReadRemote(remote));
    var s' := WithChannel(s, k, e.channel).(readsDone := s.readsDone + 1);
    SessionStep(s', if e.notify.Some? then Some(Notify(s.id, k, e.notify.value)) else None)
  }

  /** One heartbeat of channel `k` of the session: it pushes the cached value,
      if there is one. */
  function BeatOf(s: Session, k: ChannelId): (n: Option<Notification>)
    ensures n.Some? <==> ChannelOf(s, k).cache.Some?
    ensures n.Some? ==> n.value == Notify(s.id, k, BleCharacteristicInt.Encode(ChannelOf(s, k).cache.value))
  {
    match BleCharacteristicInt.Push(ChannelOf(s, k))
    case None => None
    case Some(payload) => Some(Notify(s.id, k, payload))
  }

  /** `setDataK(v)` on the session: `write` of channel K, which pushes the new
      value; the other two channels are not touched. */
  function WriteOf(s: Session, k: ChannelId, v: Int32): (r: SessionStep)
    ensures r.session.id == s.id && r.session.readsDone == s.readsDone
    ensures ChannelOf(r.session, k) == BleCharacteristicInt.Write(ChannelOf(s, k), v)
    ensures forall j :: j != k ==> ChannelOf(r.session, j) == ChannelOf(s, j)
    ensures r.notify == Some(Notify(s.id, k, BleCharacteristicInt.Encode(v)))
  {
    SessionStep(WithChannel(s, k, BleCharacteristicInt.Write(ChannelOf(s, k), v)),
                Some(Notify(s.id, k, BleCharacteristicInt.Encode(v))))
  }

  /** The publishing step of the session's combine (`_state.value =
      Connected(...)`): once the combine runs and every cache holds a value,
      the session's snapshot becomes the published state; before that the
      state is left alone. */
  function Publish(state: WizardServiceState, s: Session): (r: WizardServiceState)
    ensures s.readsDone < 3 || Snapshot(s).None? ==> r == state
    ensures s.readsDone >= 3 && (forall k :: ChannelOf(s, k).cache.Some?) ==>
      && r.Connected? && Paired(r) && r.setData1.session == s.id
      && forall k :: DeviceData(r, k) == ChannelOf(s, k).cache.value
  {
    if s.readsDone >= 3 then
      match Snapshot(s)
      case Some(snap) => snap
      case None => state
    else state
  }

  /** The session's combine has run and published its snapshot, so the
      setters of that snapshot have been handed out; before that no setter of
      the session exists. */
  predicate Published(s: Session)
  {
    s.readsDone >= 3 && Snapshot(s).Some?
  }

  // ---------------------------------------------------------------------
  // The service as evidently intended: each new connections value cancels
  // the session before it. As written, `setUpServices` runs every session in
  // the collector's own scope, so earlier sessions keep running; module
  // `SessionLeak` models that.

  /** `Idle`: nothing launched. `Launched`: `startServer` returned `Ok` and the
      server is being created. `Listening`: `onServerStart` ran and the
      connections map is collected. `Failed`: a set-up hit `requireNotNull`
      and the collecting coroutine ended with that error, cancelling every
      session it owned. */
  datatype Phase = Idle | Launched | Listening | Failed

  /** The service: its phase, the published state, the live session if any,
      and the id the next session will get. */
  datatype Wizard = Wizard(phase: Phase, state: WizardServiceState, session: Option<Session>, nextId: nat)

  /** A freshly constructed `BallisticWizard`. */
  function Init(): (w: Wizard)
    ensures w.state == NotStarted && w.session.None? && w.phase == Idle
  {
    Wizard(Idle, NotStarted, None, 0)
  }

  datatype StartOutcome = StartOutcome(wizard: Wizard, result: ServerStartResult)

  /** `startServer`: if any required permission is not granted, the names of
      exactly those permissions, in order, and nothing is launched; otherwise
      `Ok`, with the server and the advertiser launched. */
  function StartServer(w: Wizard, granted: Permission -> bool): (r: StartOutcome)
    ensures r.result.PermissionRequired? <==> exists p :: p in RequiredPermissions && !granted(p)
    ensures r.result.PermissionRequired? ==>
      && r.wizard == w
      && r.result.permissions == Names(NonGranted(RequiredPermissions, granted))
      && (forall p :: Name(p) in r.result.permissions <==> !granted(p))
    ensures r.result.Ok? ==> r.wizard.state == w.state && (w.phase == Idle ==> r.wizard.phase == Launched)
  {
    match Preflight(granted)
    case PermissionRequired(names) => StartOutcome(w, PermissionRequired(names))
    case Ok => StartOutcome(if w.phase == Idle then w.(phase := Launched) else w, Ok)
  }

  /** An input the service reacts to. Events of one session name it by id. */
  datatype Event =
    | ServerCreated                             // `ServerBleGatt.create` returned; `onServerStart` runs
    | ConnectionsUpdate(conns: seq<Connection>) // a new value of `server.connections`, its devices in map order
    | InitialRead(session: nat, remote: seq<Byte>) // that session's next initial `read()` returns `remote`
    | Heartbeat(session: nat, channel: ChannelId)  // one beat of that session's channel
    | Set(setter: Setter, value: Int32)         // the presentation layer calls a setter it was handed

  /** The session an event belongs to, if it belongs to one. */
  function Target(e: Event): (t: Option<nat>)
    ensures t.Some? <==> !(e.ServerCreated? || e.ConnectionsUpdate?)
  {
    match e
    case InitialRead(i, _) => Some(i)
    case Heartbeat(i, _) => Some(i)
    case Set(setter, _) => Some(setter.session)
    case _ => None
  }

  datatype Output = Output(wizard: Wizard, notify: Option<Notification>)

  predicate IsLive(w: Wizard, i: nat)
  {
    w.session.Some? && w.session.value.id == i
  }

  /** `onServerStart`: the published state becomes `WaitingForDevice` and the
      connections map starts being collected. */
  function OnServerCreated(w: Wizard): (r: Wizard)
    ensures w.phase == Launched ==> r.phase == Listening && r.state == WaitingForDevice && r.session == w.session
    ensures w.phase != Launched ==> r == w
  {
    if w.phase == Launched then w.(phase := Listening, state := WaitingForDevice) else w
  }

  /** One emission of the connections map, with the previous session
      cancelled: if no device offers the service the state goes back to
      `WaitingForDevice`; if the first service found lacks one of the three
      characteristics the collector fails; otherwise a new session starts,
      its channels empty. The published state is left as it was until the new
      session's snapshot replaces it. */
  function OnConnections(w: Wizard, conns: seq<Connection>): (r: Wizard)
    ensures w.phase != Listening ==> r == w
    ensures w.phase == Listening ==> r.session.None? || r.session == Some(NewSession(w.nextId))
    ensures w.phase == Listening && !Offers(conns, ServerUuid) ==>
      r == w.(state := WaitingForDevice, session := None)
    ensures w.phase == Listening && Offers(conns, ServerUuid) ==>
      match FindService(AllServices(conns), ServerUuid)
      case None => false
      case Some(svc) =>
        && svc in AllServices(conns)
        && svc.uuid == ServerUuid
        && r.state == w.state
        && ((forall k :: HasCharacteristic(svc, k)) ==>
              r == w.(session := Some(NewSession(w.nextId)), nextId := w.nextId + 1))
        && ((exists k :: !HasCharacteristic(svc, k)) ==> r == w.(phase := Failed, session := None))
  {
    if w.phase != Listening then w
    else
      match Discover(conns)
      case NoDevice => w.(state := WaitingForDevice, session := None)
      case Complete(_) => w.(session := Some(NewSession(w.nextId)), nextId := w.nextId + 1)
      case Incomplete(_) => w.(phase := Failed, session := None)
  }

  /** The next initial read of session `i`; only the live session still reads. */
  function OnInitialRead(w: Wizard, i: nat, remote: seq<Byte>): (r: Output)
    ensures !IsLive(w, i) || w.session.value.readsDone >= 3 ==> r == Output(w, None)
    ensures IsLive(w, i) && w.session.value.readsDone < 3 ==>
      var s := w.session.value;
      var k := ReadOrder(s.readsDone);
      && r.wizard.session.Some?
      && var s' := r.wizard.session.value;
      && s'.id == s.id
      && s'.readsDone == s.readsDone + 1
      && ChannelOf(s', k) == BleCharacteristicInt.Read(ChannelOf(s, k), remote).channel
      && (forall j :: j != k ==> ChannelOf(s', j) == ChannelOf(s, j))
      && r.wizard.state == Publish(w.state, s')
      && (r.notify.Some? <==> |remote| > 0)
      && (r.notify.Some? ==>
            && ChannelOf(s', k).cache.Some?
            && r.notify.value == Notify(s.id, k, BleCharacteristicInt.Encode(ChannelOf(s', k).cache.value)))
  {
    if IsLive(w, i) && w.session.value.readsDone < 3 then
      var o := ReadNext(w.session.value, remote);
      Output(w.(session := Some(o.session), state := Publish(w.state, o.session)), o.notify)
    else Output(w, None)
  }

  /** One heartbeat of channel `k` of session `i`: the live session's channel
      pushes its cached value; a cancelled session's heartbeat has stopped. */
  function OnHeartbeat(w: Wizard, i: nat, k: ChannelId): (r: Output)
    ensures r.wizard == w
    ensures r.notify.Some? <==> IsLive(w, i) && ChannelOf(w.session.value, k).cache.Some?
    ensures r.notify.Some? ==>
      r.notify.value == Notify(i, k, BleCharacteristicInt.Encode(ChannelOf(w.session.value, k).cache.value))
  {
    if IsLive(w, i) then Output(w, BeatOf(w.session.value, k)) else Output(w, None)
  }

  /** `setDataK(v)`: forwards to `write` of channel K of the session that
      published the setter. The channel pushes the new value, and the running
      combine publishes a new snapshot. A session's setters exist only inside
      the `Connected` its combine published, so before that the event does
      nothing. A setter of a cancelled session does nothing here; as written,
      the earlier session is never cancelled and its setter keeps working
      (`SessionLeak.EarlierSetterRepublishes`). */
  function OnSet(w: Wizard, setter: Setter, v: Int32): (r: Output)
    ensures !IsLive(w, setter.session) || !Published(w.session.value) ==> r == Output(w, None)
    ensures IsLive(w, setter.session) && Published(w.session.value) ==>
      var s := w.session.value;
      var k := setter.channel;
      && r.wizard.session == Some(WithChannel(s, k, BleCharacteristicInt.Write(ChannelOf(s, k), v)))
      && r.wizard.state == Publish(w.state, r.wizard.session.value)
      && Published(r.wizard.session.value)
      && Snapshot(r.wizard.session.value) == Some(r.wizard.state)
      && r.wizard.phase == w.phase && r.wizard.nextId == w.nextId
      && r.notify == Some(Notify(s.id, k, BleCharacteristicInt.Encode(v)))
  {
    if IsLive(w, setter.session) && Published(w.session.value) then
      var o := WriteOf(w.session.value, setter.channel, v);
      UpdateKeepsOtherChannels(w.session.value, setter.channel, v);
      Output(w.(session := Some(o.session), state := Publish(w.state, o.session)), o.notify)
    else Output(w, None)
  }

  /** One event. Every notification comes from the live session and carries
      the encoding of the value its channel then holds; an event of any other
      session changes nothing and sends nothing. */
  function Step(w: Wizard, e: Event): (r: Output)
    ensures r.notify.Some? ==>
      var n := r.notify.value;
      && IsLive(r.wizard, n.session)
      && ChannelOf(r.wizard.session.value, n.channel).cache.Some?
      && n.payload == BleCharacteristicInt.Encode(ChannelOf(r.wizard.session.value, n.channel).cache.value)
    ensures Target(e).Some? && !IsLive(w, Target(e).value) ==> r == Output(w, None)
    ensures Target(e).None? ==> r.notify.None?
  {
    match e
    case ServerCreated => Output(OnServerCreated(w), None)
    case ConnectionsUpdate(conns) => Output(OnConnections(w, conns), None)
    case InitialRead(i, remote) => OnInitialRead(w, i, remote)
    case Heartbeat(i, k) => OnHeartbeat(w, i, k)
    case Set(setter, v) => OnSet(w, setter, v)
  }

  /** The service after a sequence of events and every notification sent. */
  datatype Trace = Trace(wizard: Wizard, notifies: seq<Notification>)

  function Run(w: Wizard, events: seq<Event>): (t: Trace)
    ensures |t.notifies| <= |events|
    decreases |events|
  {
    if |events| == 0 then Trace(w, [])
    else
      var o := Step(w, events[0]);
      var rest := Run(o.wizard, events[1..]);
      Trace(rest.wizard, (if o.notify.Some? then [o.notify.value] else []) + rest.notifies)
  }
}

=== FILE: ble_characteristic_int.dfy ===
/** One data channel of the service: a one-value cache in front of a GATT
    characteristic, the one-byte integer codec used on the wire, and the push
    rule that notifies the central with the cached value.

    The replay-1 shared flow becomes an `Option<Int32>`; the heartbeat flow and
    the emissions of the cache become explicit events, each applied in turn. */
module BleCharacteristicInt {
  import opened Wrappers
  import opened KotlinTypes

  /** `Int.toBytes()`: a single byte holding the low 8 bits of the value. */
  function Encode(v: Int32): (bytes: seq<Byte>)
    ensures |bytes| == 1
    ensures (bytes[0] - v) % 256 == 0
  {
    [ToByte(v)]
  }

  /** `toIntOrNull()`: the characteristic value read as UINT8 at offset 0;
      there is no value when the array is shorter than one byte. */
  function Decode(bytes: seq<Byte>): (n: Option<Int32>)
    ensures n.Some? <==> |bytes| >= 1
    ensures n.Some? ==> 0 <= n.value < 256 && (n.value - bytes[0]) % 256 == 0
  {
    if |bytes| < 1 then None else Some(Unsigned(bytes[0]))
  }

  /** What the central decodes from a pushed value is that value modulo 256. */
  lemma RoundTrip(v: Int32)
    ensures Decode(Encode(v)) == Some(v % 256)
  {
  }

  /** On a value that already fits in an unsigned byte the codec is lossless. */
  lemma RoundTripInRange(v: Int32)
    requires 0 <= v < 256
    ensures Decode(Encode(v)) == Some(v)
  {
  }

  /** The channel's cache: the replay-1 flow holds no value or exactly one. */
  datatype Channel = Channel(cache: Option<Int32>)

  /** A channel as constructed for a new connection: nothing cached. */
  const Fresh: Channel := Channel(None)

  /** `write`: replaces the cached value; nothing is queued and nothing is
      sent from inside the call. */
  function Write(c: Channel, v: Int32): (r: Channel)
    ensures r.cache == Some(v)
  {
    Channel(Some(v))
  }

  /** Writes are not queued: a later write hides every earlier one. */
  lemma LastWriterWins(c: Channel, v1: Int32, v2: Int32)
    ensures Write(Write(c, v1), v2) == Write(c, v2)
    ensures Write(c, v2).cache == Some(v2)
  {
  }

  /** The result of `read`: the value returned to the caller and the channel
      after the read. */
  datatype ReadResult = ReadResult(value: Int32, channel: Channel)

  /** `read`, given the bytes the characteristic currently holds: a value that
      does not decode yields 0 and leaves the cache alone; a decoded value is
      returned and stored as if it had been written. */
  function Read(c: Channel, remote: seq<Byte>): (r: ReadResult)
    ensures 0 <= r.value < 256
    ensures |remote| == 0 ==> r == ReadResult(0, c)
    ensures |remote| > 0 ==>
      && Decode(remote) == Some(r.value)
      && r.channel == Write(c, r.value)
      && (r.value - remote[0]) % 256 == 0
  {
    match Decode(remote)
    case None => ReadResult(0, c)
    case Some(n) => ReadResult(n, Write(c, n))
  }

  /** A value read from the characteristic and pushed back on the next beat
      reaches the central unchanged. */
  lemma ReadThenBeatRoundTrip(c: Channel, remote: seq<Byte>)
    requires |remote| > 0
    ensures var n := Read(c, remote).value;
      && Push(Read(c, remote).channel) == Some(Encode(n))
      && Decode(Encode(n)) == Some(n)
  {
  }

  /** The `combine(beat, state)` collector: it fires when the heartbeat beats
      or the cache emits, and only once the cache holds a value; it then
      notifies with the encoding of the latest cached value. */
  function Push(c: Channel): (payload: Option<seq<Byte>>)
    ensures payload.None? <==> c.cache.None?
    ensures payload.Some? ==>
      |payload.value| == 1 && Decode(payload.value) == Some(c.cache.value % 256)
  {
    match c.cache
    case None => None
    case Some(v) => RoundTrip(v); Some(Encode(v))
  }

  /** The inputs a single channel reacts to. */
  datatype ChannelEvent =
    | WriteValue(v: Int32)          // `write(v)`
    | ReadRemote(remote: seq<Byte>) // `read()`, the characteristic holding `remote`
    | Beat                          // one heartbeat of the `beat` flow

  /** The channel after an event and the notification it causes, if any. */
  datatype Effect = Effect(channel: Channel, notify: Option<seq<Byte>>)

  /** One event: a write or a decoded read updates the cache, whose emission
      makes the collector push; a beat pushes the cache as it stands; a read
      that does not decode changes nothing and emits nothing. */
  function Step(c: Channel, e: ChannelEvent): (r: Effect)
    ensures r.notify.Some? ==> r.notify == Push(r.channel)
    ensures r.notify.None? <==>
      (e.Beat? && c.cache.None?) || (e.ReadRemote? && |e.remote| == 0)
    ensures e.Beat? || (e.ReadRemote? && |e.remote| == 0) ==> r.channel == c
    ensures e.WriteValue? ==> r.channel == Write(c, e.v)
    ensures e.ReadRemote? && |e.remote| > 0 ==> r.channel == Read(c, e.remote).channel
  {
    match e
    case WriteValue(v) =>
      var c' := Write(c, v);
      Effect(c', Push(c'))
    case ReadRemote(remote) =>
      if |remote| < 1 then Effect(c, None)
      else
        var c' := Read(c, remote).channel;
        Effect(c', Push(c'))
    case Beat =>
      Effect(c, Push(c))
  }

  /** The channel after a sequence of events and every notification sent. */
  datatype Trace = Trace(channel: Channel, notifies: seq<seq<Byte>>)

  function Run(c: Channel, events: seq<ChannelEvent>): (t: Trace)
    decreases |events|
  {
    if |events| == 0 then Trace(c, [])
    else
      var e := Step(c, events[0]);
      var rest := Run(e.channel, events[1..]);
      Trace(rest.channel, (if e.notify.Some? then [e.notify.value] else []) + rest.notifies)
  }

  function Writes(vs: seq<Int32>): (events: seq<ChannelEvent>)
    ensures |events| == |vs|
    ensures forall i :: 0 <= i < |vs| ==> events[i] == WriteValue(vs[i])
  {
    if |vs| == 0 then [] else [WriteValue(vs[0])] + Writes(vs[1..])
  }

  /** After a burst of writes the cache holds the last one, and every write of
      the burst was pushed as it happened, in order, with its own value. */
  lemma {:induction false} BurstKeepsLatest(c: Channel, vs: seq<Int32>)
    requires |vs| > 0
    ensures Run(c, Writes(vs)).channel.cache == Some(vs[|vs| - 1])
    ensures Run(c, Writes(vs)).notifies == seq(|vs|, i requires 0 <= i < |vs| => Encode(vs[i]))
    decreases |vs|
  {
    var events := Writes(vs);
    assert events[1..] == Writes(vs[1..]);
    var t := Run(c, events);
    if |vs| > 1 {
      BurstKeepsLatest(Write(c, vs[0]), vs[1..]);
      var rest := Run(Write(c, vs[0]), Writes(vs[1..]));
      assert t.notifies == [Encode(vs[0])] + rest.notifies;
    } else {
      assert t.notifies == [Encode(vs[0])];
    }
  }

  /** The heartbeat that follows a burst of writes pushes the last value
      written, not any earlier one. */
  lemma BeatAfterBurst(c: Channel, vs: seq<Int32>)
    requires |vs| > 0
    ensures Step(Run(c, Writes(vs)).channel, Beat).notify == Some(Encode(vs[|vs| - 1]))
  {
    BurstKeepsLatest(c, vs);
  }

  /** An event that leaves an empty cache empty: a beat or an undecodable read. */
  predicate Quiet(e: ChannelEvent)
  {
    e.Beat? || (e.ReadRemote? && |e.remote| == 0)
  }

  /** While nothing was ever cached the channel pushes nothing, however many
      heartbeats pass. */
  lemma {:induction false} SilentUntilFirstValue(c: Channel, events: seq<ChannelEvent>)
    requires c.cache.None?
    requires forall i :: 0 <= i < |events| ==> Quiet(events[i])
    ensures Run(c, events) == Trace(c, [])
    decreases |events|
  {
    if |events| > 0 {
      assert Quiet(events[0]);
      SilentUntilFirstValue(c, events[1..]);
    }
  }
}

=== FILE: kotlin_types.dfy ===
/** The fixed-width integer types of the Kotlin runtime that the service code
    relies on, written out over Dafny's unbounded integers. */
module KotlinTypes {

  const IntMin: int := -0x8000_0000
  const IntMax: int := 0x7FFF_FFFF

  /** Kotlin `Int`: a 32-bit two's-complement integer. */
  type Int32 = x: int | IntMin <= x <= IntMax

  /** Kotlin `Byte`: a signed 8-bit integer. */
  type Byte = b: int | -128 <= b <= 127

  /** `Int.toByte()`: keeps the low 8 bits of the two's-complement
      representation and reads them back as a signed byte. */
  function ToByte(v: Int32): (b: Byte)
    ensures (b - v) % 256 == 0
  {
    var low := v % 256;
    if low < 128 then low else low - 256
  }

  /** `byte & 0xFF`: the same 8 bits read as an unsigned value. */
  function Unsigned(b: Byte): (u: int)
    ensures 0 <= u < 256
    ensures (u - b) % 256 == 0
  {
    if b < 0 then b + 256 else b
  }
}

=== FILE: recursive_cancel.dfy ===
/** `CoroutineContext.recursiveCancel`: cancels every job below the context's
    job, walking the parent-to-children tree depth first. */
module RecursiveCancel {
  import opened Wrappers

  /** A coroutine job: whether it has been cancelled, and the jobs it owns. */
  datatype Job = Job(cancelled: bool, children: seq<Job>)

  /** Two trees with the same nodes in the same places. */
  ghost predicate SameShape(a: Job, b: Job)
  {
    && |a.children| == |b.children|
    && forall i :: 0 <= i < |a.children| ==> SameShape(a.children[i], b.children[i])
  }

  /** A job and everything below it are cancelled. */
  ghost predicate AllCancelled(j: Job)
  {
    && j.cancelled
    && forall i :: 0 <= i < |j.children| ==> AllCancelled(j.children[i])
  }

  /** `recursiveCancel` on the context whose job is `j`: each child that has
      children of its own is first walked recursively, then every child is
      cancelled. The job itself is not cancelled. */
  function Cancel(j: Job): (r: Job)
    ensures r.cancelled == j.cancelled
    ensures SameShape(r, j)
    ensures forall i :: 0 <= i < |r.children| ==> AllCancelled(r.children[i])
    decreases j, 1
  {
    Job(j.cancelled, CancelEach(j.children))
  }

  /** The `forEach` over the children. */
  function CancelEach(cs: seq<Job>): (rs: seq<Job>)
    ensures |rs| == |cs|
    ensures forall i :: 0 <= i < |cs| ==> SameShape(rs[i], cs[i]) && AllCancelled(rs[i])
    decreases cs, 0
  {
    if |cs| == 0 then []
    else
      var child := cs[0];
      var walked := if |child.children| > 0 then Cancel(child) else child;
      [Job(true, walked.children)] + CancelEach(cs[1..])
  }

  /** The node reached from `j` by following child indices along `path`. */
  function NodeAt(j: Job, path: seq<nat>): (node: Option<Job>)
    ensures |path| == 0 ==> node == Some(j)
    decreases |path|
  {
    if |path| == 0 then Some(j)
    else if path[0] < |j.children| then NodeAt(j.children[path[0]], path[1..])
    else None
  }

  lemma {:induction false} ShapeKeepsPaths(a: Job, b: Job, path: seq<nat>)
    requires SameShape(a, b)
    ensures NodeAt(a, path).Some? <==> NodeAt(b, path).Some?
    decreases |path|
  {
    if |path| > 0 && path[0] < |a.children| {
      ShapeKeepsPaths(a.children[path[0]], b.children[path[0]], path[1..]);
    }
  }

  lemma {:induction false} AllCancelledBelow(j: Job, path: seq<nat>)
    requires AllCancelled(j)
    ensures NodeAt(j, path).Some? ==> NodeAt(j, path).value.cancelled
    decreases |path|
  {
    if |path| > 0 && path[0] < |j.children| {
      AllCancelledBelow(j.children[path[0]], path[1..]);
    }
  }

  /** After `recursiveCancel` the tree has the same nodes, the root keeps its
      own flag, and every strict descendant (leaves included) is cancelled. */
  lemma CancelReachesEveryDescendant(j: Job, path: seq<nat>)
    ensures NodeAt(Cancel(j), []) == Some(Cancel(j)) && Cancel(j).cancelled == j.cancelled
    ensures NodeAt(Cancel(j), path).Some? <==> NodeAt(j, path).Some?
    ensures |path| > 0 && NodeAt(Cancel(j), path).Some? ==> NodeAt(Cancel(j), path).value.cancelled
  {
    var r := Cancel(j);
    ShapeKeepsPaths(r, j, path);
    if |path| > 0 && path[0] < |r.children| {
      AllCancelledBelow(r.children[path[0]], path[1..]);
    }
  }
}

=== FILE: session_leak.dfy ===
/** The service exactly as `onServerStart` wires it. In `collectLatest { ... }`
    the action takes no receiver, so the `connectionScope = this` it hands to
    `setUpServices` is the scope of the long-lived `launch` that collects the
    connections map, not a scope of one emission. Nothing ever cancels a
    session's heartbeats, its read-and-combine block or its setters: every
    session ever set up stays live until the collector itself fails.

    The single-session model of `BallisticWizard`, where each connections
    value cancels the session before it, is the evidently intended one; this
    module keeps the code as written beside it. */
module SessionLeak {
  import opened Wrappers
  import opened KotlinTypes
  import opened WizardTower
  import opened BallisticWizard
  import BleCharacteristicInt

  /** The service with every session set up so far; session `i` has id `i`. */
  datatype Leaky = Leaky(phase: Phase, state: WizardServiceState, sessions: seq<Session>)

  function LeakyInit(): (w: Leaky)
    ensures w.state == NotStarted && w.phase == Idle && |w.sessions| == 0
  {
    Leaky(Idle, NotStarted, [])
  }

  datatype LeakyStart = LeakyStart(wizard: Leaky, result: ServerStartResult)

  /** `startServer`: the same preflight; `Ok` launches the server. */
  function LeakyStartServer(w: Leaky, granted: Permission -> bool): (r: LeakyStart)
    ensures r.result == Preflight(granted)
    ensures r.result.PermissionRequired? ==> r.wizard == w
    ensures r.result.Ok? ==> r.wizard.state == w.state && (w.phase == Idle ==> r.wizard.phase == Launched)
  {
    match Preflight(granted)
    case PermissionRequired(names) => LeakyStart(w, PermissionRequired(names))
    case Ok => LeakyStart(if w.phase == Idle then w.(phase := Launched) else w, Ok)
  }

  /** Session `i` exists and its coroutines still run. */
  predicate Running(w: Leaky, i: nat)
  {
    w.phase == Listening && i < |w.sessions|
  }

  datatype LeakyOutput = LeakyOutput(wizard: Leaky, notify: Option<Notification>)

  /** One event, as the code is written: a connections value without the
      service only resets the published state, and one with the complete
      service adds a session next to the earlier ones; a failed set-up ends
      the collector and with it every session. Reads, heartbeats and setters
      of any running session act, and that session's combine publishes; a
      setter acts once its session has published the `Connected` holding it. */
  function LeakyStep(w: Leaky, e: Event): (r: LeakyOutput)
    ensures |r.wizard.sessions| >= |w.sessions|
    ensures r.notify.Some? ==>
      && Target(e).Some? && Running(w, Target(e).value)
      && var s := r.wizard.sessions[Target(e).value];
      var n := r.notify.value;
      && n.session == s.id
      && ChannelOf(s, n.channel).cache.Some?
      && n.payload == BleCharacteristicInt.Encode(ChannelOf(s, n.channel).cache.value)
    ensures e.ServerCreated? ==>
      r == LeakyOutput(if w.phase == Launched then w.(phase := Listening, state := WaitingForDevice) else w, None)
    ensures e.ConnectionsUpdate? && w.phase != Listening ==> r == LeakyOutput(w, None)
    ensures e.ConnectionsUpdate? && w.phase == Listening && Discover(e.conns).Incomplete? ==>
      r == LeakyOutput(w.(phase := Failed), None)
    ensures e.ConnectionsUpdate? && w.phase == Listening && !Offers(e.conns, ServerUuid) ==>
      r.wizard == w.(state := WaitingForDevice)
    ensures e.ConnectionsUpdate? && w.phase == Listening && Discover(e.conns).Complete? ==>
      r.wizard == w.(sessions := w.sessions + [NewSession(|w.sessions|)])
    ensures e.InitialRead? && Running(w, e.session) && w.sessions[e.session].readsDone < 3 ==>
      var i := e.session;
      var o := ReadNext(w.sessions[i], e.remote);
      r == LeakyOutput(w.(sessions := w.sessions[i := o.session], state := Publish(w.state, o.session)), o.notify)
    ensures e.InitialRead? && (!Running(w, e.session) || w.sessions[e.session].readsDone >= 3) ==>
      r == LeakyOutput(w, None)
    ensures e.Heartbeat? && !Running(w, e.session) ==> r == LeakyOutput(w, None)
    ensures e.Heartbeat? && Running(w, e.session) ==>
      r == LeakyOutput(w, BeatOf(w.sessions[e.session], e.channel))
    ensures e.Set? && (!Running(w, e.setter.session) || !Published(w.sessions[e.setter.session])) ==>
      r == LeakyOutput(w, None)
    ensures e.Set? && Running(w, e.setter.session) && Published(w.sessions[e.setter.session]) ==>
      var i := e.setter.session;
      var o := WriteOf(w.sessions[i], e.setter.channel, e.value);
      r == LeakyOutput(w.(sessions := w.sessions[i := o.session], state := Publish(w.state, o.session)), o.notify)
  {
    match e
    case ServerCreated =>
      LeakyOutput(if w.phase == Launched then w.(phase := Listening, state := WaitingForDevice) else w, None)
    case ConnectionsUpdate(conns) =>
      if w.phase != Listening then LeakyOutput(w, None)
      else (
        match Discover(conns)
        case NoDevice => LeakyOutput(w.(state := WaitingForDevice), None)
        case Complete(_) => LeakyOutput(w.(sessions := w.sessions + [NewSession(|w.sessions|)]), None)
        case Incomplete(_) => LeakyOutput(w.(phase := Failed), None))
    case InitialRead(i, remote) =>
      if Running(w, i) && w.sessions[i].readsDone < 3 then
        var o := ReadNext(w.sessions[i], remote);
        LeakyOutput(w.(sessions := w.sessions[i := o.session], state := Publish(w.state, o.session)), o.notify)
      else LeakyOutput(w, None)
    case Heartbeat(i, k) =>
      if Running(w, i) then LeakyOutput(w, BeatOf(w.sessions[i], k)) else LeakyOutput(w, None)
    case Set(setter, v) =>
      var i := setter.session;
      if Running(w, i) && Published(w.sessions[i]) then
        var o := WriteOf(w.sessions[i], setter.channel, v);
        LeakyOutput(w.(sessions := w.sessions[i := o.session], state := Publish(w.state, o.session)), o.notify)
      else LeakyOutput(w, None)
  }

  datatype LeakyTrace = LeakyTrace(wizard: Leaky, notifies: seq<Notification>)

  function LeakyRun(w: Leaky, events: seq<Event>): (t: LeakyTrace)
    ensures |t.notifies| <= |events|
    decreases |events|
  {
    if |events| == 0 then LeakyTrace(w, [])
    else
      var o := LeakyStep(w, events[0]);
      var rest := LeakyRun(o.wizard, events[1..]);
      LeakyTrace(rest.wizard, (if o.notify.Some? then [o.notify.value] else []) + rest.notifies)
  }

  /** What holds between events in the code as written: session `i` has id
      `i`; and a `Connected` state on show is the current snapshot of the
      session whose combine published it, whichever session that is. */
  ghost predicate LeakyInv(w: Leaky)
  {
    && ((w.phase == Idle || w.phase == Launched) <==> w.state == NotStarted)
    && (|w.sessions| > 0 ==> w.phase == Listening || w.phase == Failed)
    && (forall i :: 0 <= i < |w.sessions| ==> w.sessions[i].id == i && w.sessions[i].readsDone <= 3)
    && (w.state.Connected? ==>
          && Paired(w.state)
          && w.state.setData1.session < |w.sessions|
          && w.sessions[w.state.setData1.session].readsDone == 3
          && Snapshot(w.sessions[w.state.setData1.session]) == Some(w.state))
  }

  lemma LeakyInitInv()
    ensures LeakyInv(LeakyInit())
  {
  }

  lemma LeakyStepInv(w: Leaky, e: Event)
    requires LeakyInv(w)
    ensures LeakyInv(LeakyStep(w, e).wizard)
  {
    var w' := LeakyStep(w, e).wizard;
    match e
    case ServerCreated =>
    case ConnectionsUpdate(conns) =>
      if w.phase == Listening && Discover(conns).Complete? {
        assert forall i :: 0 <= i < |w.sessions| ==> w'.sessions[i] == w.sessions[i];
      }
    case InitialRead(i, remote) =>
      if Running(w, i) && w.sessions[i].readsDone < 3 {
        var o := ReadNext(w.sessions[i], remote);
        if w'.state.Connected? && w'.state != w.state {
          assert w'.state == Snapshot(o.session).value;
        }
      }
    case Heartbeat(i, k) =>
    case Set(setter, v) =>
      var i := setter.session;
      if Running(w, i) {
        var o := WriteOf(w.sessions[i], setter.channel, v);
        if w.state.Connected? && w.state.setData1.session == i {
          UpdateKeepsOtherChannels(w.sessions[i], setter.channel, v);
        }
      }
  }

  lemma {:induction false} LeakyRunInv(w: Leaky, events: seq<Event>)
    requires LeakyInv(w)
    ensures LeakyInv(LeakyRun(w, events).wizard)
    decreases |events|
  {
    if |events| > 0 {
      LeakyStepInv(w, events[0]);
      LeakyRunInv(LeakyStep(w, events[0]).wizard, events[1..]);
    }
  }

  /** A connections value that does not fail the collector never stops a
      session: every earlier session is still there, unchanged. */
  predicate KeepsCollector(e: Event)
  {
    e.ConnectionsUpdate? && !Discover(e.conns).Incomplete?
  }

  lemma {:induction false} SessionsOutliveReconnects(w: Leaky, events: seq<Event>)
    requires w.phase == Listening
    requires forall j :: 0 <= j < |events| ==> KeepsCollector(events[j])
    ensures var w' := LeakyRun(w, events).wizard;
      && w'.phase == Listening
      && |w'.sessions| >= |w.sessions|
      && (forall i :: 0 <= i < |w.sessions| ==> w'.sessions[i] == w.sessions[i])
      && LeakyRun(w, events).notifies == []
    decreases |events|
  {
    if |events| > 0 {
      assert KeepsCollector(events[0]);
      var o := LeakyStep(w, events[0]);
      assert forall i :: 0 <= i < |w.sessions| ==> o.wizard.sessions[i] == w.sessions[i];
      SessionsOutliveReconnects(o.wizard, events[1..]);
    }
  }

  /** A failed set-up ends the collector, and with it every session it
      owns: from then on no event changes anything or notifies anyone. */
  lemma {:induction false} FailedCollectorStopsEverything(w: Leaky, events: seq<Event>)
    requires w.phase == Failed
    ensures LeakyRun(w, events) == LeakyTrace(w, [])
    decreases |events|
  {
    if |events| > 0 {
      assert LeakyStep(w, events[0]) == LeakyOutput(w, None);
      FailedCollectorStopsEverything(w, events[1..]);
    }
  }

  /** Hence, whatever connections values arrive (short of a failed set-up),
      a session that once cached a value keeps pushing it on every
      heartbeat. */
  lemma LeakedHeartbeatKeepsNotifying(w: Leaky, events: seq<Event>, i: nat, k: ChannelId)
    requires w.phase == Listening && i < |w.sessions|
    requires ChannelOf(w.sessions[i], k).cache.Some?
    requires forall j :: 0 <= j < |events| ==> KeepsCollector(events[j])
    ensures LeakyStep(LeakyRun(w, events).wizard, Heartbeat(i, k)).notify ==
      Some(Notify(w.sessions[i].id, k, BleCharacteristicInt.Encode(ChannelOf(w.sessions[i], k).cache.value)))
  {
    SessionsOutliveReconnects(w, events);
    var w' := LeakyRun(w, events).wizard;
    assert Running(w', i) && w'.sessions[i] == w.sessions[i];
  }

  /** As written, a newly published `Connected` is the snapshot of the
      session the event belongs to, once its reads are over; that session
      need not be the newest one. */
  lemma LeakyNoConnectedUntilAllCached(w: Leaky, e: Event)
    requires LeakyInv(w)
    requires LeakyStep(w, e).wizard.state.Connected? && LeakyStep(w, e).wizard.state != w.state
    ensures var w' := LeakyStep(w, e).wizard;
      && Target(e).Some? && Target(e).value < |w'.sessions|
      && w'.sessions[Target(e).value].readsDone == 3
      && Snapshot(w'.sessions[Target(e).value]) == Some(w'.state)
  {
  }

  /** Whichever sessions came later, the setter of the `Connected` state on
      show still writes its channel of the session that published it,
      notifies that connection, and has that session's combine republish
      `Connected` with the new value. */
  lemma EarlierSetterRepublishes(w: Leaky, k: ChannelId, v: Int32)
    requires LeakyInv(w) && w.phase == Listening && w.state.Connected?
    ensures var j := w.state.setData1.session;
      var r := LeakyStep(w, Set(SetterFor(w.state, k), v));
      && r.notify == Some(Notify(j, k, BleCharacteristicInt.Encode(v)))
      && r.wizard.state.Connected? && Paired(r.wizard.state)
      && r.wizard.state.setData1.session == j
      && DeviceData(r.wizard.state, k) == v
      && forall m :: m != k ==> DeviceData(r.wizard.state, m) == DeviceData(w.state, m)
  {
    var j := w.state.setData1.session;
    assert SetterFor(w.state, k) == SetData(j, k);
    UpdateKeepsOtherChannels(w.sessions[j], k, v);
  }

  /** As written too, a session whose initial reads are over with some
      channel still empty never changes again, whatever events follow: its
      setters never exist, and its reads are done. */
  lemma {:induction false} LeakyFailedReadStaysWithheld(w: Leaky, events: seq<Event>, i: nat)
    requires i < |w.sessions|
    requires w.sessions[i].readsDone >= 3 && Snapshot(w.sessions[i]).None?
    ensures var w' := LeakyRun(w, events).wizard;
      i < |w'.sessions| && w'.sessions[i] == w.sessions[i]
    decreases |events|
  {
    if |events| > 0 {
      var o := LeakyStep(w, events[0]);
      assert o.wizard.sessions[i] == w.sessions[i];
      LeakyFailedReadStaysWithheld(o.wizard, events[1..], i);
    }
  }

  /** A connections value in which no device offers the service takes the
      state back to `WaitingForDevice`, the empty map included, and leaves
      every session running. */
  lemma LeakyDisconnectWaitsForDevice(w: Leaky, conns: seq<Connection>)
    requires w.phase == Listening
    requires forall c, s :: c in conns && s in c.services ==> s.uuid != ServerUuid
    ensures LeakyStep(w, ConnectionsUpdate(conns)).wizard == w.(state := WaitingForDevice)
  {
  }

  /** The device of the run below: one service with all three
      characteristics. */
  const ScenarioDevice: Connection := Connection([GattService(ServerUuid, [Data1Uuid, Data2Uuid, Data3Uuid])])

  /** As written: every permission granted, the server comes up, the device
      connects, and session 0's three initial reads return `[1]`, `[2]`,
      `[3]`. */
  function AsWrittenAfterReads(): (w: Leaky)
  {
    var l2 := AsWrittenConnected();
    LeakyStep(LeakyStep(LeakyStep(l2, InitialRead(0, [1])).wizard, InitialRead(0, [2])).wizard, InitialRead(0, [3])).wizard
  }

  function AsWrittenConnected(): (w: Leaky)
  {
    var l0 := LeakyStartServer(LeakyInit(), (p: Permission) => true).wizard;
    LeakyStep(LeakyStep(l0, ServerCreated).wizard, ConnectionsUpdate([ScenarioDevice])).wizard
  }

  /** ... and then the device goes away. */
  function AsWrittenAfterDisconnect(): (w: Leaky)
  {
    LeakyStep(AsWrittenAfterReads(), ConnectionsUpdate([])).wizard
  }

  /** The same events on the intended service. */
  function IntendedAfterReads(): (w: Wizard)
  {
    var i2 := IntendedConnected();
    Step(Step(Step(i2, InitialRead(0, [1])).wizard, InitialRead(0, [2])).wizard, InitialRead(0, [3])).wizard
  }

  function IntendedConnected(): (w: Wizard)
  {
    var i0 := StartServer(Init(), (p: Permission) => true).wizard;
    Step(Step(i0, ServerCreated).wizard, ConnectionsUpdate([ScenarioDevice])).wizard
  }

  function IntendedAfterDisconnect(): (w: Wizard)
  {
    Step(IntendedAfterReads(), ConnectionsUpdate([])).wizard
  }

  /** The discrepancy on one run: one device connects, its three initial
      reads decode 1, 2, 3, then the device goes away. The published state is
      `WaitingForDevice` either way; but as written, session 0 still pushes
      `[1]` on its next heartbeat, and its setter still republishes
      `Connected`, where the intended model does neither. */
  lemma DisconnectLeavesSessionRunning()
    ensures AsWrittenAfterReads().state == Connected(1, SetData(0, Data1), 2, SetData(0, Data2), 3, SetData(0, Data3))
    ensures IntendedAfterReads().state == AsWrittenAfterReads().state
    ensures AsWrittenAfterDisconnect().state == WaitingForDevice
    ensures IntendedAfterDisconnect().state == WaitingForDevice
    ensures LeakyStep(AsWrittenAfterDisconnect(), Heartbeat(0, Data1)).notify == Some(Notify(0, Data1, [1]))
    ensures Step(IntendedAfterDisconnect(), Heartbeat(0, Data1)).notify.None?
    ensures LeakyStep(AsWrittenAfterDisconnect(), Set(SetData(0, Data2), 7)).wizard.state ==
      Connected(1, SetData(0, Data1), 7, SetData(0, Data2), 3, SetData(0, Data3))
    ensures Step(IntendedAfterDisconnect(), Set(SetData(0, Data2), 7)).wizard.state == WaitingForDevice
  {
    AsWrittenScenario();
    IntendedScenario();
    AsWrittenHeartbeatAfterDisconnect();
    AsWrittenSetterAfterDisconnect();
    IntendedSilentAfterDisconnect();
  }

  lemma AsWrittenHeartbeatAfterDisconnect()
    ensures LeakyStep(Leaky(Listening, WaitingForDevice, [ScenarioSession()]), Heartbeat(0, Data1)).notify ==
      Some(Notify(0, Data1, [1]))
  {
    var s0 := ScenarioSession();
    assert BleCharacteristicInt.Encode(1) == [1];
    assert BeatOf(s0, Data1) == Some(Notify(0, Data1, [1]));
  }

  lemma AsWrittenSetterAfterDisconnect()
    ensures LeakyStep(Leaky(Listening, WaitingForDevice, [ScenarioSession()]), Set(SetData(0, Data2), 7)).wizard.state ==
      Connected(1, SetData(0, Data1), 7, SetData(0, Data2), 3, SetData(0, Data3))
  {
    var s0 := ScenarioSession();
    assert Published(s0);
    var afterSet := LeakyStep(Leaky(Listening, WaitingForDevice, [s0]), Set(SetData(0, Data2), 7)).wizard;
    assert afterSet.sessions[0] == Session(0, s0.ch1, BleCharacteristicInt.Channel(Some(7)), s0.ch3, 3);
  }

  lemma IntendedSilentAfterDisconnect()
    ensures Step(Wizard(Listening, WaitingForDevice, None, 1), Heartbeat(0, Data1)).notify.None?
    ensures Step(Wizard(Listening, WaitingForDevice, None, 1), Set(SetData(0, Data2), 7)).wizard.state == WaitingForDevice
  {
  }

  /** The session 0 of the run above once its reads 1, 2, 3 are done. */
  function ScenarioSession(): (s: Session)
    ensures s.id == 0 && s.readsDone == 3
    ensures forall k :: ChannelOf(s, k).cache.Some?
  {
    Session(0, BleCharacteristicInt.Channel(Some(1)), BleCharacteristicInt.Channel(Some(2)),
            BleCharacteristicInt.Channel(Some(3)), 3)
  }

  lemma AsWrittenConnects()
    ensures AsWrittenConnected() == Leaky(Listening, WaitingForDevice, [NewSession(0)])
  {
    var device := ScenarioDevice;
    assert Offers([device], ServerUuid) by {
      assert device in [device] && device.services[0] in device.services;
    }
    var l0 := LeakyStartServer(LeakyInit(), (p: Permission) => true).wizard;
    assert l0 == Leaky(Launched, NotStarted, []);
    var l1 := LeakyStep(l0, ServerCreated).wizard;
    assert l1 == Leaky(Listening, WaitingForDevice, []);
  }

  lemma AsWrittenScenario()
    ensures AsWrittenAfterReads() == Leaky(Listening, Snapshot(ScenarioSession()).value, [ScenarioSession()])
    ensures AsWrittenAfterDisconnect() == Leaky(Listening, WaitingForDevice, [ScenarioSession()])
  {
    AsWrittenConnects();
    var c1, c2 := BleCharacteristicInt.Channel(Some(1)), BleCharacteristicInt.Channel(Some(2));
    var empty := BleCharacteristicInt.Fresh;
    var l2 := AsWrittenConnected();
    var l3 := LeakyStep(l2, InitialRead(0, [1])).wizard;
    assert l3 == Leaky(Listening, WaitingForDevice, [Session(0, c1, empty, empty, 1)]);
    var l4 := LeakyStep(l3, InitialRead(0, [2])).wizard;
    assert l4 == Leaky(Listening, WaitingForDevice, [Session(0, c1, c2, empty, 2)]);
    var l5 := LeakyStep(l4, InitialRead(0, [3])).wizard;
    assert l5.sessions == [ScenarioSession()];
    assert l5 == Leaky(Listening, Snapshot(ScenarioSession()).value, [ScenarioSession()]);
    assert LeakyStep(l5, ConnectionsUpdate([])).wizard == Leaky(Listening, WaitingForDevice, [ScenarioSession()]);
  }

  lemma IntendedConnects()
    ensures IntendedConnected() == Wizard(Listening, WaitingForDevice, Some(NewSession(0)), 1)
  {
    var device := ScenarioDevice;
    assert Offers([device], ServerUuid) by {
      assert device in [device] && device.services[0] in device.services;
    }
    var i0 := StartServer(Init(), (p: Permission) => true).wizard;
    assert i0 == Wizard(Launched, NotStarted, None, 0);
    var i1 := Step(i0, ServerCreated).wizard;
    assert i1 == Wizard(Listening, WaitingForDevice, None, 0);
  }

  lemma IntendedScenario()
    ensures IntendedAfterReads() == Wizard(Listening, Snapshot(ScenarioSession()).value, Some(ScenarioSession()), 1)
    ensures IntendedAfterDisconnect() == Wizard(Listening, WaitingForDevice, None, 1)
  {
    IntendedConnects();
    var c1, c2 := BleCharacteristicInt.Channel(Some(1)), BleCharacteristicInt.Channel(Some(2));
    var empty := BleCharacteristicInt.Fresh;
    var i2 := IntendedConnected();
    var i3 := Step(i2, InitialRead(0, [1])).wizard;
    assert i3 == Wizard(Listening, WaitingForDevice, Some(Session(0, c1, empty, empty, 1)), 1);
    var i4 := Step(i3, InitialRead(0, [2])).wizard;
    assert i4 == Wizard(Listening, WaitingForDevice, Some(Session(0, c1, c2, empty, 2)), 1);
  }
}

=== FILE: wizard_properties.dfy ===
/** Properties of the service over whole runs of events: what the published
    state can show, when snapshots appear, and when channels stay silent. */
module WizardProperties {
  import opened Wrappers
  import opened KotlinTypes
  import opened WizardTower
  import opened BallisticWizard
  import BleCharacteristicInt

  /** What holds of the service between any two events:
      - the state is `NotStarted` exactly while the server is not up;
      - a live session exists only while the connections map is collected,
        and its id has been handed out;
      - a `Connected` state pairs each value with that channel's setter;
      - a `Connected` state of the live session shows exactly the values its
        three channels hold, and was published by its running combine. */
  ghost predicate Inv(w: Wizard)
  {
    && ((w.phase == Idle || w.phase == Launched) <==> w.state == NotStarted)
    && (w.session.Some? ==>
          && w.phase == Listening
          && w.session.value.id < w.nextId
          && w.session.value.readsDone <= 3)
    && (w.state.Connected? ==> Paired(w.state) && w.state.setData1.session < w.nextId)
    && (w.state.Connected? && w.session.Some? && w.state.setData1.session == w.session.value.id ==>
          && w.session.value.readsDone == 3
          && Snapshot(w.session.value) == Some(w.state))
  }

  lemma InitInv()
    ensures Inv(Init())
  {
  }

  lemma StartServerInv(w: Wizard, granted: Permission -> bool)
    requires Inv(w)
    ensures Inv(StartServer(w, granted).wizard)
  {
  }

  lemma StepInv(w: Wizard, e: Event)
    requires Inv(w)
    ensures Inv(Step(w, e).wizard)
  {
  }

  lemma {:induction false} RunInv(w: Wizard, events: seq<Event>)
    requires Inv(w)
    ensures Inv(Run(w, events).wizard)
    decreases |events|
  {
    if |events| > 0 {
      StepInv(w, events[0]);
      RunInv(Step(w, events[0]).wizard, events[1..]);
    }
  }

  /** Whatever happens after start, a `Connected` state published by the live
      session shows the values its channels hold, each next to the setter of
      that channel. */
  lemma ConnectedMirrorsChannels(granted: Permission -> bool, events: seq<Event>)
    ensures var w := Run(StartServer(Init(), granted).wizard, events).wizard;
      w.state.Connected? && w.session.Some? && w.state.setData1.session == w.session.value.id ==>
        forall k :: && ChannelOf(w.session.value, k).cache.Some?
                    && DeviceData(w.state, k) == ChannelOf(w.session.value, k).cache.value
                    && SetterFor(w.state, k) == SetData(w.session.value.id, k)
  {
    InitInv();
    StartServerInv(Init(), granted);
    RunInv(StartServer(Init(), granted).wizard, events);
  }

  /** Once the service has left `NotStarted` it never returns there. */
  lemma {:induction false} NeverBackToNotStarted(w: Wizard, events: seq<Event>)
    requires w.state != NotStarted
    ensures Run(w, events).wizard.state != NotStarted
    decreases |events|
  {
    if |events| > 0 {
      var e := events[0];
      assert Step(w, e).wizard.state != NotStarted;
      NeverBackToNotStarted(Step(w, e).wizard, events[1..]);
    }
  }

  /** Combine-latest: a step that publishes a new `Connected` state does so
      only once all three channels of the live session hold a value and the
      initial reads are over, and what it publishes is that session's
      snapshot. */
  lemma NoConnectedUntilAllCached(w: Wizard, e: Event)
    requires Inv(w)
    requires Step(w, e).wizard.state.Connected? && Step(w, e).wizard.state != w.state
    ensures var w' := Step(w, e).wizard;
      && w'.session.Some?
      && w'.session.value.readsDone == 3
      && (forall k :: ChannelOf(w'.session.value, k).cache.Some?)
      && Snapshot(w'.session.value) == Some(w'.state)
  {
  }

  /** A session that has just been set up, nothing cached or read yet. */
  ghost predicate JustSetUp(w: Wizard)
  {
    && Inv(w)
    && w.session.Some?
    && w.session.value == NewSession(w.session.value.id)
  }

  /** When all three initial reads decode, the first snapshot published is
      exactly the three values read, with the session's setters; each read
      value was pushed back on its own channel. */
  lemma FirstSnapshotIsInitialReads(w: Wizard, b1: seq<Byte>, b2: seq<Byte>, b3: seq<Byte>)
    requires JustSetUp(w)
    requires |b1| > 0 && |b2| > 0 && |b3| > 0
    ensures var id := w.session.value.id;
      var t := Run(w, [InitialRead(id, b1), InitialRead(id, b2), InitialRead(id, b3)]);
      && t.wizard.state == Connected(
           BleCharacteristicInt.Decode(b1).value, SetData(id, Data1),
           BleCharacteristicInt.Decode(b2).value, SetData(id, Data2),
           BleCharacteristicInt.Decode(b3).value, SetData(id, Data3))
      && |t.notifies| == 3
  {
    var id := w.session.value.id;
    var events := [InitialRead(id, b1), InitialRead(id, b2), InitialRead(id, b3)];
    var o1 := Step(w, events[0]);
    var o2 := Step(o1.wizard, events[1]);
    var o3 := Step(o2.wizard, events[2]);
    assert events[1..][1..] == [events[2]];
    assert Run(o3.wizard, []) == Trace(o3.wizard, []);
    assert Run(o2.wizard, events[1..][1..]) == Trace(o3.wizard, [o3.notify.value]);
    assert Run(o1.wizard, events[1..]) == Trace(o3.wizard, [o2.notify.value, o3.notify.value]);
  }

  /** When an initial read does not decode, that channel stays empty and the
      combine publishes nothing: the state stays as it was. */
  lemma FailedReadWithholdsSnapshot(w: Wizard, b1: seq<Byte>, b2: seq<Byte>, b3: seq<Byte>)
    requires JustSetUp(w)
    requires |b1| == 0 || |b2| == 0 || |b3| == 0
    ensures var id := w.session.value.id;
      var t := Run(w, [InitialRead(id, b1), InitialRead(id, b2), InitialRead(id, b3)]);
      && t.wizard.state == w.state
      && t.wizard.session.Some?
      && t.wizard.session.value.readsDone == 3
      && Snapshot(t.wizard.session.value).None?
  {
    var id := w.session.value.id;
    var events := [InitialRead(id, b1), InitialRead(id, b2), InitialRead(id, b3)];
    var o1 := Step(w, events[0]);
    var o2 := Step(o1.wizard, events[1]);
    var o3 := Step(o2.wizard, events[2]);
    assert events[1..][1..] == [events[2]];
    assert Run(o2.wizard, events[1..][1..]).wizard == o3.wizard;
    assert Run(o1.wizard, events[1..]).wizard == o3.wizard;
    if |b1| == 0 {
      assert ChannelOf(o3.wizard.session.value, Data1).cache.None?;
    } else if |b2| == 0 {
      assert ChannelOf(o3.wizard.session.value, Data2).cache.None?;
    } else {
      assert ChannelOf(o3.wizard.session.value, Data3).cache.None?;
    }
  }

  /** With each earlier session cancelled (the intended behaviour; see
      `SessionLeak` for the code as written), a setter, heartbeat or initial
      read of any session but the live one changes nothing and sends
      nothing. */
  lemma CancelledSessionIsInert(w: Wizard, i: nat, k: ChannelId, v: Int32, remote: seq<Byte>)
    requires !IsLive(w, i)
    ensures Step(w, Set(SetData(i, k), v)) == Output(w, None)
    ensures Step(w, Heartbeat(i, k)) == Output(w, None)
    ensures Step(w, InitialRead(i, remote)) == Output(w, None)
  {
  }

  /** `setDataK` reaches channel K of its own session and no other channel,
      once that session has published the `Connected` holding the setter;
      before that the setter does not exist yet and the event does nothing. */
  lemma SetterWritesOnlyItsChannel(w: Wizard, k: ChannelId, v: Int32)
    requires w.session.Some?
    ensures var s := w.session.value;
      var w' := Step(w, Set(SetData(s.id, k), v)).wizard;
      && (Published(s) ==>
            && w'.session.Some?
            && ChannelOf(w'.session.value, k).cache == Some(v)
            && forall j :: j != k ==> ChannelOf(w'.session.value, j) == ChannelOf(s, j))
      && (!Published(s) ==> w' == w)
  {
  }

  /** A session whose initial reads are over with some channel still empty
      stays that way: until a new connections value arrives, nothing changes
      the service at all, so the combine never publishes for it. */
  lemma {:induction false} FailedReadStaysWithheld(w: Wizard, events: seq<Event>)
    requires Inv(w) && w.session.Some?
    requires w.session.value.readsDone >= 3 && Snapshot(w.session.value).None?
    requires forall i :: 0 <= i < |events| ==> NoReconnect(events[i])
    ensures Run(w, events).wizard == w
    decreases |events|
  {
    if |events| > 0 {
      assert NoReconnect(events[0]);
      assert Step(w, events[0]).wizard == w;
      FailedReadStaysWithheld(w, events[1..]);
    }
  }

  /** A new device offering the complete service gets a brand-new session:
      the previous one is dropped (in the single-session design only; as
      written it keeps running, `SessionLeak.SessionsOutliveReconnects`),
      nothing is cached or read yet, and no setter of the state still on show
      can reach it. */
  lemma ReconnectStartsFresh(w: Wizard, conns: seq<Connection>)
    requires Inv(w) && w.phase == Listening
    requires FindService(AllServices(conns), ServerUuid).Some?
    requires forall k :: HasCharacteristic(FindService(AllServices(conns), ServerUuid).value, k)
    ensures var w' := Step(w, ConnectionsUpdate(conns)).wizard;
      && w'.session.Some?
      && (forall k :: ChannelOf(w'.session.value, k).cache.None?)
      && w'.session.value.readsDone == 0
      && w'.state == w.state
      && (w.session.Some? ==> w'.session.value.id != w.session.value.id)
      && (w'.state.Connected? ==> forall k :: SetterFor(w'.state, k).session != w'.session.value.id)
  {
  }

  /** Events other than a new connections value. */
  predicate NoReconnect(e: Event)
  {
    !e.ConnectionsUpdate?
  }

  /** Once the session is gone (no device offers the service, or set-up
      failed) nothing is notified until a new connections value arrives: no
      heartbeat, initial read or earlier session's setter reaches the
      transport. As written, earlier sessions keep beating
      (`SessionLeak.LeakedHeartbeatKeepsNotifying`). */
  lemma {:induction false} SilentWithoutSession(w: Wizard, events: seq<Event>)
    requires w.session.None?
    requires forall i :: 0 <= i < |events| ==> NoReconnect(events[i])
    ensures Run(w, events).notifies == []
    ensures Run(w, events).wizard.session.None?
    decreases |events|
  {
    if |events| > 0 {
      assert NoReconnect(events[0]);
      var o := Step(w, events[0]);
      assert o.notify.None? && o.wizard.session.None?;
      SilentWithoutSession(o.wizard, events[1..]);
    }
  }

  /** A connections value in which no device offers the service takes the
      state back to `WaitingForDevice` and ends the session; an empty map is
      one such value. */
  lemma DisconnectWaitsForDevice(w: Wizard, conns: seq<Connection>)
    requires w.phase == Listening
    requires forall c, s :: c in conns && s in c.services ==> s.uuid != ServerUuid
    ensures Step(w, ConnectionsUpdate(conns)).wizard.state == WaitingForDevice
    ensures Step(w, ConnectionsUpdate(conns)).wizard.session.None?
  {
  }

  /** Three channels end to end: start with every permission granted, the
      server comes up, one device offers the service, the initial reads
      decode, the three setters write 10, 20, 30, then channel 2 is set to
      99, then the device goes away. */
  lemma EndToEndScenario()
    ensures
      var start := StartServer(Init(), (p: Permission) => true);
      var device := Connection([GattService(ServerUuid, [Data1Uuid, Data2Uuid, Data3Uuid])]);
      var w0 := start.wizard;
      var w1 := Step(w0, ServerCreated).wizard;
      var w2 := Step(w1, ConnectionsUpdate([device])).wizard;
      var w3 := Step(Step(Step(w2, InitialRead(0, [1])).wizard, InitialRead(0, [2])).wizard, InitialRead(0, [3])).wizard;
      var w4 := Step(Step(Step(w3, Set(SetData(0, Data1), 10)).wizard,
                          Set(SetData(0, Data2), 20)).wizard, Set(SetData(0, Data3), 30)).wizard;
      var o5 := Step(w4, Set(SetData(0, Data2), 99));
      var w6 := Step(o5.wizard, ConnectionsUpdate([])).wizard;
      && start.result == Ok
      && w1.state == WaitingForDevice
      && w3.state == Connected(1, SetData(0, Data1), 2, SetData(0, Data2), 3, SetData(0, Data3))
      && w4.state == Connected(10, SetData(0, Data1), 20, SetData(0, Data2), 30, SetData(0, Data3))
      && o5.wizard.state == Connected(10, SetData(0, Data1), 99, SetData(0, Data2), 30, SetData(0, Data3))
      && o5.notify == Some(Notify(0, Data2, [99]))
      && w6.state == WaitingForDevice
      && Step(w6, Heartbeat(0, Data1)).notify.None?
      && Step(w6, Heartbeat(0, Data2)).notify.None?
      && Step(w6, Heartbeat(0, Data3)).notify.None?
  {
    var device := Connection([GattService(ServerUuid, [Data1Uuid, Data2Uuid, Data3Uuid])]);
    assert Offers([device], ServerUuid) by {
      assert device in [device] && device.services[0] in device.services;
    }
    var start := StartServer(Init(), (p: Permission) => true);
    assert start.wizard == Wizard(Launched, NotStarted, None, 0);
    var w1 := Step(start.wizard, ServerCreated).wizard;
    assert w1 == Wizard(Listening, WaitingForDevice, None, 0);
    var w2 := Step(w1, ConnectionsUpdate([device])).wizard;
    assert w2 == Wizard(Listening, WaitingForDevice, Some(NewSession(0)), 1);
    var r1 := Step(w2, InitialRead(0, [1])).wizard;
    var r2 := Step(r1, InitialRead(0, [2])).wizard;
    var w3 := Step(r2, InitialRead(0, [3])).wizard;
    assert w3.session.value.readsDone == 3;
    var a := Step(w3, Set(SetData(0, Data1), 10)).wizard;
    var b := Step(a, Set(SetData(0, Data2), 20)).wizard;
    var w4 := Step(b, Set(SetData(0, Data3), 30)).wizard;
    assert w4.session.Some? && w4.session.value.readsDone == 3;
    var o5 := Step(w4, Set(SetData(0, Data2), 99));
    var w6 := Step(o5.wizard, ConnectionsUpdate([])).wizard;
    assert w6.session.None?;
  }
}

=== FILE: wizard_tower.dfy ===
/** The externally observed status of the service, `WizardServiceState`. */
module WizardTower {
  import opened KotlinTypes

  /** The three data channels of the service, in declaration order. */
  datatype ChannelId = Data1 | Data2 | Data3

  /** A `setDataK` callback. The closure forwards to `write` of one channel
      object created for one connection; here it is the handle naming that
      connection's session and that channel. */
  datatype Setter = SetData(session: nat, channel: ChannelId)

  /** `NotStarted` and `WaitingForDevice` carry nothing; `Connected` carries
      one value per channel, each next to its own setter. */
  datatype WizardServiceState =
    | NotStarted
    | WaitingForDevice
    | Connected(
        deviceData1: Int32, setData1: Setter,
        deviceData2: Int32, setData2: Setter,
        deviceData3: Int32, setData3: Setter)

  /** The value a `Connected` state shows for channel `k`. */
  function DeviceData(s: WizardServiceState, k: ChannelId): (v: Int32)
    requires s.Connected?
  {
    match k
    case Data1 => s.deviceData1
    case Data2 => s.deviceData2
    case Data3 => s.deviceData3
  }

  /** The setter a `Connected` state offers for channel `k`. */
  function SetterFor(s: WizardServiceState, k: ChannelId): (setter: Setter)
    requires s.Connected?
  {
    match k
    case Data1 => s.setData1
    case Data2 => s.setData2
    case Data3 => s.setData3
  }

  /** Every setter of a `Connected` state writes the channel it stands next
      to, and all three belong to the same session. */
  ghost predicate Paired(s: WizardServiceState)
  {
    s.Connected? ==>
      forall k :: SetterFor(s, k) == SetData(s.setData1.session, k)
  }

  /** A `Connected` state is determined by its three values and its session:
      it holds nothing beyond one value and one setter per channel. */
  lemma ConnectedDeterminedByChannels(a: WizardServiceState, b: WizardServiceState)
    requires a.Connected? && b.Connected? && Paired(a) && Paired(b)
    requires a.setData1.session == b.setData1.session
    requires forall k :: DeviceData(a, k) == DeviceData(b, k)
    ensures a == b
  {
    assert DeviceData(a, Data1) == DeviceData(b, Data1);
    assert DeviceData(a, Data2) == DeviceData(b, Data2);
    assert DeviceData(a, Data3) == DeviceData(b, Data3);
    assert SetterFor(a, Data1) == SetData(a.setData1.session, Data1) == SetterFor(b, Data1);
    assert SetterFor(a, Data2) == SetData(a.setData1.session, Data2) == SetterFor(b, Data2);
    assert SetterFor(a, Data3) == SetData(a.setData1.session, Data3) == SetterFor(b, Data3);
  }
}

=== FILE: wrappers.dfy ===
/** The optional value used for the nullable results of the source (`Int?`,
    a characteristic that may be missing, a service that may not be found). */
module Wrappers {

  datatype Option<+T> = None | Some(value: T)
}
